=== FILE: README.md ===
# vaultwarden key-value storage core, modelled in Dafny

This project models the storage layer that vaultwarden's `new_db` work puts under
its key-value backends (RocksDB and FoundationDB), together with the small
pieces of that layer that carry real logic:

- the RocksDB keyspace: byte prefixes joined by the 0x1F unit separator, with
  `all`, `from_bytes`, `keyspace`, `pack`, `unpack` and `range`
  (`keyspace.dfy`, on top of a lexicographic byte order in `byte_order.dfy`);
- the bounded range read `get_range`, over a store given as a strictly ascending
  sequence of key/value entries, with RocksDB's seek semantics for forward and
  reverse iterators (`range_read.dfy`);
- the optimistic retry loop of `RdbConnection::transact`, driven by a sequence of
  attempt outcomes that stands in for the closure, the rollback and the commit
  (`retry.dfy`);
- the byte preview and the `Display` text of `TypeConversionError`
  (`conversion_error.dfy`);
- backend selection `DbConnType::guess_type` and the backends' display names,
  with the filesystem answer (`is_dir`), the path extension and the compiled-in
  `cfg!` flags as plain inputs (`conn_type.dfy`);
- the FoundationDB table declarations of `schema.rs` as descriptor values with a
  well-formedness predicate (`schema.dfy`);
- the client KDF parameters `ClientKdf` with their documented ranges
  (`client_kdf.dfy`).

Everything is a pure function over immutable values, except `GetRange`,
`PreviewBytes`, `PreviewLong` and `NewFromBytes`, which are methods with loops
or calls mirroring the source. The async, `block_in_place` and RocksDB calls are
replaced by their inputs and outputs.

Three behaviours of the code are easy to misread:

- `range()` returns the pair `(prefix ++ [0x00], prefix ++ [0xFF])`. Read as
  inclusive bounds, the way `get_range` treats its bounds, it does not cover
  exactly the keys under the prefix. The key equal to the prefix itself, and
  keys continuing after a 0xFF byte, fall outside it
  (`Keyspaces.RangeOmitsSomeKeys`). Keys between the bounds do all carry the
  prefix (`Keyspaces.RangeKeysHavePrefix`).
- `get_range(from, to)` with `from > to` does not read the range backwards. The
  reverse branch seeks at `to` and stops below `from`, so it returns nothing
  (`RangeRead.GetRange`).
- `transact` with `retry_attempts == 0` reaches `unwrap()` on `None`. The model
  returns `Panic` for it (`Retry.Transact`).

## Model

| member | source | states |
|---|---|---|
| ByteOrder.Less | src/new_db/custom_backends/rdb.rs:124 | the definition of the `&[u8]` `<` that `get_range` uses at lines 124, 143 and 147: the first differing byte decides, and a proper prefix sorts first (no contract of its own); `LessIrreflexive`, `LessAsymmetric`, `LessTransitive` and `LessTotal` state that it is a strict total order |
| ByteOrder.LessIrreflexive | src/new_db/custom_backends/rdb.rs:124 | no byte string sorts strictly below itself under the slice comparison |
| ByteOrder.LessAsymmetric | src/new_db/custom_backends/rdb.rs:124 | `a < b` and `b < a` never both hold |
| ByteOrder.LessTransitive | src/new_db/custom_backends/rdb.rs:124 | the byte order is transitive |
| ByteOrder.LessTotal | src/new_db/custom_backends/rdb.rs:124 | any two distinct byte strings are ordered one way or the other |
| ByteOrder.LessEqTransitive | src/new_db/custom_backends/rdb.rs:124 | `<=` on byte strings is transitive |
| ByteOrder.LessEqAntisymmetric | src/new_db/custom_backends/rdb.rs:124 | `a <= b` and `b <= a` imply `a == b` |
| ByteOrder.LessCommonPrefix | src/new_db/custom_backends/rdb.rs:234-236 | prepending the same keyspace prefix to two keys keeps their order, in both directions |
| ByteOrder.LessProperPrefix | src/new_db/custom_backends/rdb.rs:243 | a proper prefix sorts below every extension of it |
| ByteOrder.LessAtFirstDifference | src/new_db/custom_backends/rdb.rs:124 | the first differing byte decides the order |
| ByteOrder.LessEqNotLess | src/new_db/custom_backends/rdb.rs:142-150 | `a <= b` rules out `b < a`, so the two stop tests of the loop never both fire on a kept key |
| Keyspaces.All | src/new_db/custom_backends/rdb.rs:210-214 | `all()` has no prefix, so every key lies under it |
| Keyspaces.FromBytes | src/new_db/custom_backends/rdb.rs:216-223 | `from_bytes(b)` is `b` followed by exactly one 0x1F separator |
| Keyspaces.ConnectionKeyspace | src/new_db/custom_backends/rdb.rs:38 | a connection's keyspace lies under the bare `name` keyspace and adds the schema version and one more separator |
| Keyspaces.Child | src/new_db/custom_backends/rdb.rs:229-232 | a child keyspace is its parent's bytes, then the child name, then one 0x1F separator |
| Keyspaces.Pack | src/new_db/custom_backends/rdb.rs:234-236 | a packed key starts with the keyspace bytes and adds no separator |
| Keyspaces.Unpack | src/new_db/custom_backends/rdb.rs:238-240 | `unpack` succeeds exactly when the key starts with the keyspace bytes, and packing the result gives the key back |
| Keyspaces.UnpackByCommonPrefix | src/new_db/custom_backends/rdb.rs:238-240 | `strip_prefix` succeeds exactly when the longest common prefix of the keyspace bytes and the key is all of the keyspace bytes |
| Keyspaces.Range | src/new_db/custom_backends/rdb.rs:242-244 | the lower bound sorts strictly below the upper, and both carry the prefix |
| Keyspaces.AllIsIdentity | src/new_db/custom_backends/rdb.rs:210-223 | under `all()` packing and unpacking change nothing, and `from_bytes(b)` is the child `b` of `all()` |
| Keyspaces.ConnectionKeyspaceLayout | src/new_db/custom_backends/rdb.rs:38 | a connection's keyspace is `name ++ 0x1F ++ "v2" ++ 0x1F`, below the bare `name` keyspace |
| Keyspaces.PackUnpackRoundTrip | src/new_db/custom_backends/rdb.rs:234-240 | `unpack(pack(b)) == Some(b)` for every keyspace and key |
| Keyspaces.ChildKeysUnpackUnderParent | src/new_db/custom_backends/rdb.rs:229-240 | a key of a child keyspace unpacks under the parent to `child ++ 0x1F ++ b` |
| Keyspaces.SiblingsDisjoint | src/new_db/custom_backends/rdb.rs:203-232 | sibling keyspaces with distinct separator-free names never nest |
| Keyspaces.SiblingKeysIsolated | src/new_db/custom_backends/rdb.rs:229-240 | a key packed under one such sibling never unpacks under another |
| Keyspaces.SiblingRangesDisjoint | src/new_db/custom_backends/rdb.rs:229-244 | the `range()` intervals of two such siblings never overlap |
| Keyspaces.DivergingRangesDisjoint | src/new_db/custom_backends/rdb.rs:242-244 | when neither keyspace's bytes are a prefix of the other's, one `range()` lies wholly below the other |
| Keyspaces.SeparatorInNameCollides | src/new_db/custom_backends/rdb.rs:203-204 | with 0x1F inside a name, a key of sibling `a\x1Fb` unpacks under sibling `a` |
| Keyspaces.RangeKeysHavePrefix | src/new_db/custom_backends/rdb.rs:242-244 | every key between the bounds of `range()` starts with the keyspace bytes |
| Keyspaces.OutsideRangeUnlessPrefixed | src/new_db/custom_backends/rdb.rs:242-244 | a key without the prefix sorts below the lower or above the upper bound |
| Keyspaces.RangeOmitsSomeKeys | src/new_db/custom_backends/rdb.rs:242-244 | the prefix itself sorts below `range()` and `prefix ++ [0xFF, 0x00]` above it |
| Keyspaces.ChildKeysInsideRange | src/new_db/custom_backends/rdb.rs:229-244 | keys of a child whose name does not start with 0xFF lie strictly inside the parent's `range()` |
| RangeRead.SeekForward | src/new_db/custom_backends/rdb.rs:126 | a forward iterator from `k` yields, ascending, exactly the stored entries with key `>= k` |
| RangeRead.SeekReverse | src/new_db/custom_backends/rdb.rs:131 | a reverse iterator from `k` yields, descending, exactly the stored entries with key `<= k` |
| RangeRead.Seek | src/new_db/custom_backends/rdb.rs:124-136 | the definition of the direction choice and seek: forward from `from` when `from < to`, otherwise reverse from `to` (no contract of its own); `SeekForward` and `SeekReverse` state what each iterator yields |
| RangeRead.KeepGoing | src/new_db/custom_backends/rdb.rs:142-150 | the definition of the two `break` tests: forward stops above `to`, reverse below `from`, the bound itself kept (no contract of its own); `KeptIsBetween` and `StoppedBeyondBound` state their effect |
| RangeRead.GetRange | src/new_db/custom_backends/rdb.rs:120-155 | the result holds exactly the stored entries with `from <= key <= to`, in ascending order; at most one when `from == to`; none when `from > to` |
| RangeRead.ScanResult | src/new_db/custom_backends/rdb.rs:138-152 | when the loop stops, the collected prefix of the iterator is exactly the entries between the bounds |
| RangeRead.ScanComplete | src/new_db/custom_backends/rdb.rs:138-150 | no entry between the bounds is left behind when the loop breaks |
| RangeRead.ScanSound | src/new_db/custom_backends/rdb.rs:142-151 | every collected entry is stored and lies between the bounds |
| RangeRead.KeptIsBetween | src/new_db/custom_backends/rdb.rs:142-151 | an entry that passes the stop test lies between `from` and `to` |
| RangeRead.StoppedBeyondBound | src/new_db/custom_backends/rdb.rs:142-150 | an entry between the bounds sits before the position where the loop stopped |
| RangeRead.NothingBetweenInverted | src/new_db/custom_backends/rdb.rs:130-135 | with `to < from` no key lies between the bounds |
| RangeRead.SameKeyWhenReversed | src/new_db/custom_backends/rdb.rs:130-150 | a reverse scan (only when `to <= from`) keeps at most one entry |
| RangeRead.SqueezedEqual | src/new_db/custom_backends/rdb.rs:130-135 | a key squeezed between `from` and `to` with `to <= from` equals `from` |
| Retry.Retryable | src/new_db/custom_backends/rdb.rs:77-82 | the definition of the Busy/TryAgain test on a commit error (no contract of its own); `FatalCommitNotRetried` and `AllConflictsExhaustBound` state its effect |
| Retry.IsConflict | src/new_db/custom_backends/rdb.rs:62-81 | the definition of an attempt that loops again: the closure succeeded and the commit failed with Busy or TryAgain (no contract of its own); `RunSkipsConflicts` and `TransactDecidedByFirstSettled` state its effect |
| Retry.Settle | src/new_db/custom_backends/rdb.rs:62-83 | the definition of the four exits that are not retried: closure error with or without a failed rollback, success, and a fatal commit error (no contract of its own); `ClosureErrorNotRetried`, `FatalCommitNotRetried` and `OkMeansCommitted` state them |
| Retry.Run | src/new_db/custom_backends/rdb.rs:56-87 | the loop opens at most `retry_attempts` transactions, every one but the last conflicted, and it panics exactly when the bound is 0 |
| Retry.Transact | src/new_db/custom_backends/rdb.rs:49-88 | `transact` opens at most `retry_attempts` transactions and panics exactly when `retry_attempts == 0` |
| Retry.FirstSettled | src/new_db/custom_backends/rdb.rs:56-85 | the first attempt that does not conflict, with every earlier one a conflict, or none when all conflict |
| Retry.TransactDecidedByFirstSettled | src/new_db/custom_backends/rdb.rs:55-87 | the loop returns the first non-conflicting attempt's outcome after that many tries, else the last conflict after all of them |
| Retry.RunSkipsConflicts | src/new_db/custom_backends/rdb.rs:77-81 | a run of conflicting attempts only carries the last conflict forward |
| Retry.ClosureErrorNotRetried | src/new_db/custom_backends/rdb.rs:62-70 | a closure error whose rollback succeeds is returned on that attempt, with no further attempt |
| Retry.FatalCommitNotRetried | src/new_db/custom_backends/rdb.rs:73-83 | a commit error other than Busy/TryAgain is returned at once as `RdbTrxFailed` |
| Retry.AllConflictsExhaustBound | src/new_db/custom_backends/rdb.rs:77-87 | when every attempt conflicts, exactly `retry_attempts` are made and the last conflict is returned |
| Retry.OkMeansCommitted | src/new_db/custom_backends/rdb.rs:62-76 | an `Ok` result carries the value of the last attempt made, whose closure succeeded and whose commit went through |
| ConversionError.Hex | src/new_db/error.rs:67 | `{:#04x}` is always four characters |
| ConversionError.HexShape | src/new_db/error.rs:67 | `{:#04x}` is "0x" and two lower-case hex digits |
| ConversionError.HexRoundTrip | src/new_db/error.rs:67 | the two hex digits read back as the byte |
| ConversionError.Decimal | src/new_db/error.rs:69 | the decimal rendering of the length is non-empty |
| ConversionError.DecimalDigits | src/new_db/error.rs:69 | the length is written in decimal digits without a leading zero |
| ConversionError.DecimalRoundTrip | src/new_db/error.rs:69 | the decimal digits read back as the length |
| ConversionError.JoinHexSnoc | src/new_db/error.rs:78 | appending a byte appends ", " and its hex form |
| ConversionError.JoinHexEndsWithDigit | src/new_db/error.rs:69-79 | a non-empty list of hex bytes ends in a hex digit |
| ConversionError.IterUntil | src/new_db/error.rs:71-75 | the definition of `iter_until`: `len - 1` below 10 bytes, else 10 (no contract of its own); `LoopEnd`, `ShownIndicesExactly` and `EllipsisIffLong` state its consequences |
| ConversionError.LoopEnd | src/new_db/error.rs:71-77 | the loop stops at or after position 2 and never beyond the slice |
| ConversionError.ShownIndices | src/new_db/error.rs:67-79 | the definition of the positions the preview prints: 0, then `2..iter_until` (no contract of its own); `ShownIndicesExactly` and `ShownIndicesInBounds` state them |
| ConversionError.Shown | src/new_db/error.rs:67-79 | the definition of the bytes the preview prints, in order (no contract of its own); `ShownAtShownIndices` ties them to `ShownIndices` |
| ConversionError.Elided | src/new_db/error.rs:80-82 | the definition of when ", ... " is appended: two or more bytes and `iter_until >= 10` (no contract of its own); `EllipsisIffLong` states it |
| ConversionError.ShownAtShownIndices | src/new_db/error.rs:69-79 | the listed bytes are the slice's bytes at the shown positions, in order |
| ConversionError.ShownIndicesExactly | src/new_db/error.rs:69-79 | position `i` is shown iff it is 0, or it lies in `2..10` and is not the last byte of a slice shorter than 10 |
| ConversionError.ShownIndicesInBounds | src/new_db/error.rs:76-79 | every position read is inside the slice, positions ascend, and at most nine bytes are listed |
| ConversionError.SecondByteNeverShown | src/new_db/error.rs:69-78 | position 1 is never part of the preview |
| ConversionError.Render | src/new_db/error.rs:64-85 | the definition of the preview text (no contract of its own); `RenderFrame`, `PreviewBytes` and `FrameShowsByte` state its shape |
| ConversionError.PreviewBytes | src/new_db/error.rs:64-85 | the preview the code builds equals the rendering defined from the shown positions |
| ConversionError.PreviewLong | src/new_db/error.rs:69-84 | the loop for two or more bytes builds the header, the shown bytes, the optional ellipsis and "]" |
| ConversionError.Printed | src/new_db/error.rs:77-79 | after the loop reaches `i` it has listed `i - 1` bytes, starting with byte 0 |
| ConversionError.PrintedStep | src/new_db/error.rs:78 | one pass appends ", " and the hex of byte `i` |
| ConversionError.FrameShowsByte | src/new_db/error.rs:69-84 | listed byte `k` appears at character offset `len(decimal) + 8 + 6k` |
| ConversionError.RenderFrame | src/new_db/error.rs:64-84 | empty slice text, one-byte text, and for longer slices the decimal length and " bytes [" up front and "]" at the end |
| ConversionError.FrameBounds | src/new_db/error.rs:69-84 | a multi-byte preview opens with its header and closes with "]" |
| ConversionError.EllipsisIffLong | src/new_db/error.rs:80-82 | the preview ends in ", ... ]" exactly when the slice has at least 10 bytes, and its second-to-last character is a space exactly then |
| ConversionError.FrameEllipsis | src/new_db/error.rs:80-84 | a space precedes the closing bracket exactly when the ellipsis is present |
| ConversionError.Display | src/new_db/error.rs:95-98 | the message is 37 fixed characters longer than the two type names and the preview together; `DisplayDeterminesPreview` states what it carries |
| ConversionError.DisplayDeterminesPreview | src/new_db/error.rs:95-98 | given the type names, the `Display` text determines the preview |
| ConversionError.NewFromBytes | src/new_db/error.rs:59-92 | `new_from_bytes` stores the rendered preview and the two type names |
| ConversionError.JoinHexAt | src/new_db/error.rs:69-79 | in a joined list, byte `k` sits at offset `6k` and the list is `6n - 2` characters long |
| ConversionError.RenderIntended | src/new_db/error.rs:64-85 | the definition of the corrected preview: the same three branches, listing the first `min(len, 10)` bytes with the ellipsis only when bytes were left out (no contract of its own); `IntendedShowsLeadingBytes` and `IntendedPreviewOfThreeBytes` state what it prints |
| ConversionError.Lead | src/new_db/error.rs:70-75 | the intended preview lists `min(len, 10)` leading bytes |
| ConversionError.IntendedShowsLeadingBytes | src/new_db/error.rs:69-84 | in the corrected preview, every byte below `min(len, 10)`, including byte 1, is printed at its offset |
| ConversionError.IntendedFrameShowsByte | src/new_db/error.rs:69-84 | the corrected frame prints leading byte `i` at its offset |
| ConversionError.WrittenPreviewOfThreeBytes | src/new_db/error.rs:69-84 | as written, the three bytes 01 02 03 preview as "3 bytes [0x01]" |
| ConversionError.IntendedPreviewOfThreeBytes | src/new_db/error.rs:69-84 | corrected, the same slice previews as "3 bytes [0x01, 0x02, 0x03]" |
| ConnType.Name | src/new_db/mod.rs:43-49 | the definition of the five display names (no contract of its own); `NamesDistinct` states they differ |
| ConnType.NamesDistinct | src/new_db/mod.rs:123-129 | the five display names (FoundationDB, RocksDB, MySQL, PostgreSQL, SQLite) are pairwise distinct |
| ConnType.GuessType | src/new_db/mod.rs:132-183 | the result is the chosen backend or `DbDisabled` for it with the unchanged string; `Ok` iff that backend is enabled; each backend is chosen exactly under its rule and priority |
| ConnType.FeaturesNeverChangeChoice | src/new_db/mod.rs:134-182 | the compiled-in flags never change which backend is chosen |
| ConnType.MysqlPrefixWins | src/new_db/mod.rs:134-141 | a "mysql:" string is classified the same whatever the filesystem says |
| ConnType.LastIndexOf | src/new_db/mod.rs:154 | the last occurrence of a character, or -1 when it does not occur |
| ConnType.FileName | src/new_db/mod.rs:154 | the file name `Path::extension` looks at is a suffix of the path that contains no '/' |
| ConnType.StdExtension | src/new_db/mod.rs:154 | the definition of `Path::extension(..).unwrap_or("")` on the file name (no contract of its own); `ExtensionHasNoDot` and `ClusterExtension` state what it returns |
| ConnType.ExtensionHasNoDot | src/new_db/mod.rs:154 | an extension as `Path::extension` returns it contains no dot |
| ConnType.PathNeverFdb | src/new_db/mod.rs:150-179 | with the real extension, a path string is never classified as FoundationDB |
| ConnType.ClusterPathIsSqlite | src/new_db/mod.rs:164-178 | as written, a cluster file such as `fdb.cluster` is classified as SQLite |
| ConnType.ClusterExtension | src/new_db/mod.rs:154 | the extension of `name.cluster` is "cluster" |
| ConnType.GuessTypeIntended | src/new_db/mod.rs:164-170 | the corrected rule picks FoundationDB exactly for a non-URL, non-directory path with extension "cluster", and agrees with the written rule for every extension other than "cluster" and ".cluster" |
| ConnType.ClusterPathIsFdb | src/new_db/mod.rs:164-170 | corrected, a cluster file is classified as FoundationDB |
| ConnType.LastIndexOfAbsent | src/new_db/mod.rs:154 | a character that does not occur has no last index |
| ConnType.LastIndexOfSuffix | src/new_db/mod.rs:154 | the last occurrence inside a suffix is found at its offset in the whole string |
| Schema.Attachments | src/db/schemas/fdb/schema.rs:4-12 | the definition of the `fdb_table!` declaration: its name, key, columns and tags (no contract of its own); `Schema.AttachmentsWellFormed` states it is well formed |
| Schema.Cipher | src/db/schemas/fdb/schema.rs:14-31 | the definition of the `fdb_table!` declaration: its name, key, columns and tags (no contract of its own); `Schema.CipherWellFormed` states it is well formed |
| Schema.Collection | src/db/schemas/fdb/schema.rs:35-42 | the definition of the `fdb_table!` declaration: its name, key, columns and tags (no contract of its own); `Schema.CollectionWellFormed` states it is well formed |
| Schema.Device | src/db/schemas/fdb/schema.rs:44-57 | the definition of the `fdb_table!` declaration: its name, key, columns and tags (no contract of its own); `Schema.DeviceWellFormed` states it is well formed |
| Schema.Event | src/db/schemas/fdb/schema.rs:59-78 | the definition of the `fdb_table!` declaration: its name, key, columns and tags (no contract of its own); `Schema.EventWellFormed` states it is well formed |
| Schema.Folder | src/db/schemas/fdb/schema.rs:82-90 | the definition of the `fdb_table!` declaration: its name, key, columns and tags (no contract of its own); `Schema.FolderWellFormed` states it is well formed |
| Schema.OrgPolicy | src/db/schemas/fdb/schema.rs:96-104 | the definition of the `fdb_table!` declaration: its name, key, columns and tags (no contract of its own); `Schema.OrgPolicyWellFormed` states it is well formed |
| Schema.Organization | src/db/schemas/fdb/schema.rs:106-114 | the definition of the `fdb_table!` declaration: its name, key, columns and tags (no contract of its own); `Schema.OrganizationWellFormed` states it is well formed |
| Schema.Send | src/db/schemas/fdb/schema.rs:116-138 | the definition of the `fdb_table!` declaration: its name, key, columns and tags (no contract of its own); `Schema.SendWellFormed` states it is well formed |
| Schema.Twofactor | src/db/schemas/fdb/schema.rs:140-149 | the definition of the `fdb_table!` declaration: its name, key, columns and tags (no contract of its own); `Schema.TwofactorWellFormed` states it is well formed |
| Schema.TwofactorIncomplete | src/db/schemas/fdb/schema.rs:151-159 | the definition of the `fdb_table!` declaration: its name, key, columns and tags (no contract of its own); `Schema.TwofactorIncompleteWellFormed` states it is well formed |
| Schema.User | src/db/schemas/fdb/schema.rs:161-195 | the definition of the `fdb_table!` declaration: its name, key, columns and tags (no contract of its own); `Schema.UserWellFormed` states it is well formed |
| Schema.Group | src/db/schemas/fdb/schema.rs:201-211 | the definition of the `fdb_table!` declaration: its name, key, columns and tags (no contract of its own); `Schema.GroupWellFormed` states it is well formed |
| Schema.Tables | src/db/schemas/fdb/schema.rs:4-211 | the definition of the thirteen declared tables, in file order (no contract of its own); `AllTablesWellFormed`, `TableNamesDistinct` and `OnlyGroupIndexed` state their properties |
| Schema.AttachmentsWellFormed | src/db/schemas/fdb/schema.rs:4-12 | attachments has a non-empty, declared primary key and distinct tags |
| Schema.CipherWellFormed | src/db/schemas/fdb/schema.rs:14-31 | cipher has a non-empty, declared primary key and distinct tags |
| Schema.CollectionWellFormed | src/db/schemas/fdb/schema.rs:35-42 | collection has a non-empty, declared primary key and distinct tags |
| Schema.DeviceWellFormed | src/db/schemas/fdb/schema.rs:44-57 | both columns of device's composite key are declared, and tags are distinct |
| Schema.EventWellFormed | src/db/schemas/fdb/schema.rs:59-78 | event is well formed, and its tags jump from 14 to 16: the sixteenth column carries tag 16 and no column carries 15 |
| Schema.FolderWellFormed | src/db/schemas/fdb/schema.rs:82-90 | folder has a non-empty, declared primary key and distinct tags |
| Schema.OrgPolicyWellFormed | src/db/schemas/fdb/schema.rs:96-104 | org_policy has a non-empty, declared primary key and distinct tags |
| Schema.OrganizationWellFormed | src/db/schemas/fdb/schema.rs:106-114 | organization has a non-empty, declared primary key and distinct tags |
| Schema.SendWellFormed | src/db/schemas/fdb/schema.rs:116-138 | send has a non-empty, declared primary key and distinct tags |
| Schema.TwofactorWellFormed | src/db/schemas/fdb/schema.rs:140-149 | twofactor has a non-empty, declared primary key and distinct tags |
| Schema.TwofactorIncompleteWellFormed | src/db/schemas/fdb/schema.rs:151-159 | both columns of twofactor_incomplete's composite key are declared, and tags are distinct |
| Schema.UserWellFormed | src/db/schemas/fdb/schema.rs:161-195 | user's 31 tags are distinct and its key is declared |
| Schema.GroupWellFormed | src/db/schemas/fdb/schema.rs:201-211 | group's composite key is declared, and its `<- (name)` index column is declared and part of the key |
| Schema.AllTablesWellFormed | src/db/schemas/fdb/schema.rs:4-211 | every declared table is well formed |
| Schema.TableNamesDistinct | src/db/schemas/fdb/schema.rs:4-211 | no two tables share a name |
| Schema.OnlyGroupIndexed | src/db/schemas/fdb/schema.rs:201-202 | group is the only table with an index, and the index is its key's second column |
| Schema.Numbered | src/db/schemas/fdb/schema.rs:161-195 | a run of declarations keeps its length and gets strictly increasing tags, the first one `first` and the last `first + len - 1` |
| Schema.AppendIncreasing | src/db/schemas/fdb/schema.rs:74-76 | two increasing tag runs, the second starting above the first, stay increasing when joined |
| Kdf.Valid | src/new_db/models/enums/client_kdf.rs:4-15 | the definition of the documented ranges in the field comments (no contract of its own); `Default`, `Pbkdf2Of`, `Argon2idOf` and `ValidIsBuilt` state values inside them |
| Kdf.Discriminant | src/new_db/models/enums/client_kdf.rs:1-15 | the `repr(u8)` discriminant is 1 or 2 |
| Kdf.DiscriminantIdentifiesVariant | src/new_db/models/enums/client_kdf.rs:3-15 | `Pkbdf2` is 1, Argon2id is 2, and equal discriminants mean the same variant |
| Kdf.Default | src/new_db/models/enums/client_kdf.rs:18-24 | the default is `Pkbdf2` with 600000 iterations, the lower end of its documented range |
| Kdf.Pbkdf2Of | src/new_db/models/enums/client_kdf.rs:4-7 | a builder that exists only in the model (the enum has no range-checking constructor): any iteration count in the documented 600000..2000000 fits the u32 field unchanged and is valid |
| Kdf.Argon2idOf | src/new_db/models/enums/client_kdf.rs:8-15 | a builder that exists only in the model: any iterations in 2..10, memory in 16..1024 and parallelism in 1..16 fit the u8/u16/u8 fields unchanged |
| Kdf.ValidIsBuilt | src/new_db/models/enums/client_kdf.rs:3-15 | every value within the documented ranges is one the two model-only builders produce, so the documented ranges fit the field widths |

## Left out

- Iterator errors inside `get_range` (`kv_result?`): the store is a plain sequence, so the loop never fails.
- `get`, `set`, `clear`, `get_space` and `clear_space` of the RocksDB transaction. They forward to RocksDB, `get_space` depends on the prefix-extractor configuration, and `clear_space` is `todo!()`.
- `establish` (opens the database and unwraps) and the `revert`/`commit` calls. Their outcomes are the inputs of `Retry.Transact`.
- Retry.Transact: requires one scripted attempt per possible iteration (`retry_attempts <= |attempts|`). The attempts stand in for re-running the closure, so this is not a restriction on `retry_attempts`.
- The FoundationDB backend (`src/new_db/custom_backends/fdb.rs`) and the older `src/db/nondiesel` files: stubs, commented-out code and library forwarding.
- `TypeConversionError::new_to_string`: it only stores `to_string()` and `type_name` results, which are opaque library output.
- ConversionError.NewFromBytes: the `type_name` strings are parameters, because `std::any::type_name` output is not specified.
- ConversionError.Display: its contract gives only the message length; what the message carries is stated by `DisplayDeterminesPreview`.
- The `FdbError` and `RdbError` variants of `DbConnError`, and the error messages' text.
- ConnType.GuessType: `Path::is_dir` is an input bit, and the extension is an input string. `StdExtension` takes the text after the last '/' as the file name and does not model trailing slashes or `.` components.
- The connection pool and connection enums generated by `generate_connections!` (deadpool and diesel glue).
- `fdb_key!(invitations -> email)`: it declares no column tags, so there is no descriptor to check.
- Column value encodings (BSON dates and binaries): library behaviour.
- The second `ClientKdf` copy in `src/new_db/models/user.rs`, which is identical to the modelled one.
- Concurrency and `async`: every operation is modelled as one sequential step.

## Findings

| source | as written | input that shows it | evidently intended | confidence | as-written member | corrected member |
|---|---|---|---|---|---|---|
| src/new_db/mod.rs:164 | compares `Path::extension()` with ".cluster", but the extension never contains a dot | `fdb.cluster` (not a directory) gives extension "cluster", so it is classified as SQLite | a cluster file selects FoundationDB: compare with "cluster" | high, not executed | ConnType.ClusterPathIsSqlite | ConnType.ClusterPathIsFdb |
| src/new_db/error.rs:71-77 | the loop starts at 2, so byte 1 is never listed; for slices of 2 to 9 bytes the loop also stops at `len - 1`, so their last byte is not listed either | the bytes 01 02 03 preview as "3 bytes [0x01]" | list the first `min(len, 10)` bytes, with the ellipsis only when bytes were left out | medium, not executed | ConversionError.SecondByteNeverShown | ConversionError.IntendedShowsLeadingBytes |

=== FILE: byte_order.dfy ===
/** Byte strings and the order RocksDB keys and Rust slices compare in:
    lexicographic on unsigned bytes, a proper prefix sorting first. */
module ByteOrder {

  type Bytes = seq<bv8>

  predicate IsPrefix(p: Bytes, s: Bytes)
  {
    |p| <= |s| && s[..|p|] == p
  }

  /** `a < b` for Rust `&[u8]`. */
  predicate Less(a: Bytes, b: Bytes)
    decreases |a|
  {
    if |a| == 0 then |b| > 0
    else if |b| == 0 then false
    else if a[0] != b[0] then a[0] < b[0]
    else Less(a[1..], b[1..])
  }

  predicate LessEq(a: Bytes, b: Bytes)
  {
    a == b || Less(a, b)
  }

  lemma {:induction false} LessIrreflexive(a: Bytes)
    ensures !Less(a, a)
    decreases |a|
  {
    if |a| > 0 {
      LessIrreflexive(a[1..]);
    }
  }

  lemma {:induction false} LessAsymmetric(a: Bytes, b: Bytes)
    requires Less(a, b)
    ensures !Less(b, a)
    decreases |a|
  {
    if |a| > 0 && |b| > 0 && a[0] == b[0] {
      LessAsymmetric(a[1..], b[1..]);
    }
  }

  lemma {:induction false} LessTransitive(a: Bytes, b: Bytes, c: Bytes)
    requires Less(a, b) && Less(b, c)
    ensures Less(a, c)
    decreases |a|
  {
    if |a| > 0 && |b| > 0 && |c| > 0 && a[0] == b[0] && b[0] == c[0] {
      LessTransitive(a[1..], b[1..], c[1..]);
    }
  }

  lemma {:induction false} LessTotal(a: Bytes, b: Bytes)
    ensures Less(a, b) || a == b || Less(b, a)
    decreases |a|
  {
    if |a| > 0 && |b| > 0 && a[0] == b[0] {
      LessTotal(a[1..], b[1..]);
      if a[1..] == b[1..] {
        assert a == [a[0]] + a[1..] && b == [b[0]] + b[1..];
      }
    }
  }

  lemma LessEqTransitive(a: Bytes, b: Bytes, c: Bytes)
    requires LessEq(a, b) && LessEq(b, c)
    ensures LessEq(a, c)
  {
    if a != b && b != c {
      LessTransitive(a, b, c);
    }
  }

  lemma LessEqAntisymmetric(a: Bytes, b: Bytes)
    requires LessEq(a, b) && LessEq(b, a)
    ensures a == b
  {
    if a != b {
      LessAsymmetric(a, b);
    }
  }

  /** `a <= b` rules out `b < a`. */
  lemma LessEqNotLess(a: Bytes, b: Bytes)
    requires LessEq(a, b)
    ensures !Less(b, a)
  {
    if a == b {
      LessIrreflexive(a);
    } else {
      LessAsymmetric(a, b);
    }
  }

  /** A shared prefix does not change how two byte strings compare. */
  lemma {:induction false} LessCommonPrefix(p: Bytes, a: Bytes, b: Bytes)
    ensures Less(p + a, p + b) <==> Less(a, b)
    decreases |p|
  {
    if |p| > 0 {
      assert (p + a)[1..] == p[1..] + a;
      assert (p + b)[1..] == p[1..] + b;
      LessCommonPrefix(p[1..], a, b);
    } else {
      assert p + a == a && p + b == b;
    }
  }

  /** A proper prefix sorts strictly first. */
  lemma {:induction false} LessProperPrefix(p: Bytes, s: Bytes)
    requires |s| > 0
    ensures Less(p, p + s)
    decreases |p|
  {
    if |p| > 0 {
      assert (p + s)[1..] == p[1..] + s;
      LessProperPrefix(p[1..], s);
    }
  }

  /** The first differing byte decides the comparison. */
  lemma {:induction false} LessAtFirstDifference(a: Bytes, b: Bytes, i: nat)
    requires i < |a| && i < |b| && a[..i] == b[..i] && a[i] < b[i]
    ensures Less(a, b)
    decreases i
  {
    if i > 0 {
      assert a[1..][..i - 1] == a[..i][1..] == b[..i][1..] == b[1..][..i - 1];
      LessAtFirstDifference(a[1..], b[1..], i - 1);
    }
  }

  /** Length of the longest common prefix of two byte strings. */
  function CommonPrefixLength(a: Bytes, b: Bytes): (n: nat)
    ensures n <= |a| && n <= |b|
    ensures a[..n] == b[..n]
    ensures n < |a| && n < |b| ==> a[n] != b[n]
    decreases |a|
  {
    if |a| == 0 || |b| == 0 || a[0] != b[0] then 0
    else
      var m := CommonPrefixLength(a[1..], b[1..]);
      assert a[..m + 1] == [a[0]] + a[1..][..m];
      assert b[..m + 1] == [b[0]] + b[1..][..m];
      m + 1
  }
}

=== FILE: client_kdf.dfy ===
/** The password key-derivation parameters a client registers with, as stored in
    a user record (src/new_db/models/enums/client_kdf.rs). */
module Kdf {

  newtype U8 = x: int | 0 <= x < 0x100
  newtype U16 = x: int | 0 <= x < 0x1_0000
  newtype U32 = x: int | 0 <= x < 0x1_0000_0000

  /** The two algorithms; field widths are those of the Rust enum, and the
      PBKDF2 variant keeps the enum's own spelling `Pkbdf2`. */
  datatype ClientKdf =
    | Pkbdf2(iterations: U32)
    | Argon2id(argonIterations: U8, memory: U16, parallelism: U8)

  // The documented ranges of each field (inclusive).
  const Pbkdf2MinIterations: int := 600000
  const Pbkdf2MaxIterations: int := 2000000
  const Argon2MinIterations: int := 2
  const Argon2MaxIterations: int := 10
  const Argon2MinMemory: int := 16
  const Argon2MaxMemory: int := 1024
  const Argon2MinParallelism: int := 1
  const Argon2MaxParallelism: int := 16

  /** Every field lies in its documented range. */
  predicate Valid(k: ClientKdf)
  {
    match k
    case Pkbdf2(it) => Pbkdf2MinIterations <= it as int <= Pbkdf2MaxIterations
    case Argon2id(it, mem, par) =>
      && Argon2MinIterations <= it as int <= Argon2MaxIterations
      && Argon2MinMemory <= mem as int <= Argon2MaxMemory
      && Argon2MinParallelism <= par as int <= Argon2MaxParallelism
  }

  /** The `#[repr(u8)]` discriminant of a value. */
  function Discriminant(k: ClientKdf): (d: U8)
    ensures d == 1 || d == 2
  {
    match k
    case Pkbdf2(_) => 1
    case Argon2id(_, _, _) => 2
  }

  /** The discriminant tells the algorithm: equal discriminants mean the same
      variant and different ones different variants. */
  lemma DiscriminantIdentifiesVariant(a: ClientKdf, b: ClientKdf)
    ensures Discriminant(a) == Discriminant(b) <==> a.Pkbdf2? == b.Pkbdf2?
    ensures Discriminant(a) == 1 <==> a.Pkbdf2?
  {
  }

  /** The default the server assumes for a client that registered none. */
  function Default(): (k: ClientKdf)
    ensures Valid(k) && k.Pkbdf2?
    ensures k.iterations as int == Pbkdf2MinIterations
  {
    Pkbdf2(600000)
  }

  /** A builder that exists only in this model (the Rust enum has no
      range-checking constructor): any iteration count in the documented range
      fits the `u32` field unchanged. */
  function Pbkdf2Of(iterations: int): (k: ClientKdf)
    requires Pbkdf2MinIterations <= iterations <= Pbkdf2MaxIterations
    ensures Valid(k) && k.Pkbdf2? && k.iterations as int == iterations
  {
    Pkbdf2(iterations as U32)
  }

  /** A builder that exists only in this model (the Rust enum has no
      range-checking constructor): any triple in the documented Argon2id ranges
      fits the `u8`/`u16`/`u8` fields unchanged. */
  function Argon2idOf(iterations: int, memory: int, parallelism: int): (k: ClientKdf)
    requires Argon2MinIterations <= iterations <= Argon2MaxIterations
    requires Argon2MinMemory <= memory <= Argon2MaxMemory
    requires Argon2MinParallelism <= parallelism <= Argon2MaxParallelism
    ensures Valid(k) && k.Argon2id?
    ensures k.argonIterations as int == iterations && k.memory as int == memory
    ensures k.parallelism as int == parallelism
  {
    Argon2id(iterations as U8, memory as U16, parallelism as U8)
  }

  /** Every valid value is produced by one of the two model-only builders above,
      so the documented ranges and the field widths agree. */
  lemma ValidIsBuilt(k: ClientKdf)
    requires Valid(k)
    ensures k.Pkbdf2? ==> k == Pbkdf2Of(k.iterations as int)
    ensures k.Argon2id? ==>
      k == Argon2idOf(k.argonIterations as int, k.memory as int, k.parallelism as int)
  {
  }
}

=== FILE: conn_type.dfy ===
/** `DbConnType` and `DbConnType::guess_type` (src/new_db/mod.rs): which backend a
    database URL or path selects. The filesystem query `Path::is_dir`, the path's
    extension and the compiled-in `cfg!` flags are inputs. */
module ConnType {
  import opened Wrappers

  datatype DbConnType = Fdb | Rdb | Mysql | Pgsql | Sqlite

  /** The `Display` name of each backend. */
  function Name(t: DbConnType): string
  {
    match t
    case Fdb => "FoundationDB"
    case Rdb => "RocksDB"
    case Mysql => "MySQL"
    case Pgsql => "PostgreSQL"
    case Sqlite => "SQLite"
  }

  lemma NamesDistinct(t1: DbConnType, t2: DbConnType)
    requires t1 != t2
    ensures Name(t1) != Name(t2)
  {
  }

  /** `DbConnError` (src/new_db/error.rs) without the backend-specific wrappers. */
  datatype DbConnError =
    | DbDisabled(dbType: DbConnType, connStr: string)
    | EstablishFail(message: string)
    | StartError(message: string)
    | StopError(message: string)

  /** Which backends were compiled in: `cfg!(fdb)`, `cfg!(rdb)`, `cfg!(mysql)`,
      `cfg!(postgresql)` and `cfg!(sqlite)`. */
  datatype Features = Features(fdb: bool, rdb: bool, mysql: bool, postgresql: bool, sqlite: bool)

  /** What the filesystem reports for the string taken as a path: whether it is a
      directory, and its extension ("" when it has none). */
  datatype PathFacts = PathFacts(isDir: bool, extension: string)

  predicate StartsWith(s: string, p: string)
  {
    |p| <= |s| && s[..|p|] == p
  }

  predicate Enabled(f: Features, t: DbConnType)
  {
    match t
    case Fdb => f.fdb
    case Rdb => f.rdb
    case Mysql => f.mysql
    case Pgsql => f.postgresql
    case Sqlite => f.sqlite
  }

  predicate IsMysqlUrl(s: string)
  {
    StartsWith(s, "mysql:")
  }

  predicate IsPostgresUrl(s: string)
  {
    StartsWith(s, "postgresql:") || StartsWith(s, "postgres:")
  }

  /** The backend a result names, whether it is chosen or reported disabled. */
  function Chosen(r: Result<DbConnType, DbConnError>): DbConnType
    requires r.Ok? || r.error.DbDisabled?
  {
    if r.Ok? then r.value else r.error.dbType
  }

  /** Accept the backend if compiled in, otherwise report it disabled. */
  function Admit(t: DbConnType, enabled: bool, connStr: string): Result<DbConnType, DbConnError>
  {
    if enabled then Ok(t) else Err(DbDisabled(t, connStr))
  }

  /** `guess_type`: URL prefixes first (MySQL before PostgreSQL), then a directory
      means RocksDB, an extension equal to ".cluster" FoundationDB, and anything
      else SQLite. */
  function GuessType(connStr: string, path: PathFacts, f: Features): (r: Result<DbConnType, DbConnError>)
    ensures r.Ok? || (r.error.DbDisabled? && r.error.connStr == connStr)
    ensures r.Ok? <==> Enabled(f, Chosen(r))
    ensures Chosen(r) == Mysql <==> IsMysqlUrl(connStr)
    ensures Chosen(r) == Pgsql <==> !IsMysqlUrl(connStr) && IsPostgresUrl(connStr)
    ensures Chosen(r) == Rdb <==> !IsMysqlUrl(connStr) && !IsPostgresUrl(connStr) && path.isDir
    ensures Chosen(r) == Fdb <==>
              !IsMysqlUrl(connStr) && !IsPostgresUrl(connStr) && !path.isDir && path.extension == ".cluster"
    ensures Chosen(r) == Sqlite <==>
              !IsMysqlUrl(connStr) && !IsPostgresUrl(connStr) && !path.isDir && path.extension != ".cluster"
  {
    if StartsWith(connStr, "mysql:") then Admit(Mysql, f.mysql, connStr)
    else if StartsWith(connStr, "postgresql:") || StartsWith(connStr, "postgres:") then
      Admit(Pgsql, f.postgresql, connStr)
    else if path.isDir then Admit(Rdb, f.rdb, connStr)
    else if path.extension == ".cluster" then Admit(Fdb, f.fdb, connStr)
    else Admit(Sqlite, f.sqlite, connStr)
  }

  /** The compiled-in flags decide only between `Ok` and `DbDisabled`, never the backend. */
  lemma FeaturesNeverChangeChoice(connStr: string, path: PathFacts, f1: Features, f2: Features)
    ensures Chosen(GuessType(connStr, path, f1)) == Chosen(GuessType(connStr, path, f2))
  {
  }

  /** A "mysql:" URL is MySQL whatever the filesystem says about it. */
  lemma MysqlPrefixWins(connStr: string, p1: PathFacts, p2: PathFacts, f: Features)
    requires IsMysqlUrl(connStr)
    ensures GuessType(connStr, p1, f) == GuessType(connStr, p2, f)
  {
  }

  // ---- Path::extension, and the comparison with ".cluster" ----

  /** The position of the last occurrence of `c` in `s`, or -1. */
  function LastIndexOf(s: string, c: char): (i: int)
    ensures -1 <= i < |s|
    ensures i >= 0 ==> s[i] == c
    ensures forall j :: i < j < |s| ==> s[j] != c
  {
    if |s| == 0 then -1
    else if s[|s| - 1] == c then |s| - 1
    else LastIndexOf(s[..|s| - 1], c)
  }

  /** The last component of a path: what follows its last '/'. */
  function FileName(p: string): (name: string)
    ensures |name| <= |p| && p[|p| - |name|..] == name
    ensures '/' !in name
  {
    p[LastIndexOf(p, '/') + 1..]
  }

  /** `Path::extension(..).unwrap_or_else(|| "")`: what follows the file name's
      last '.', unless the name is "..", has no dot, or its only dot leads. */
  function StdExtension(p: string): (ext: string)
  {
    var name := FileName(p);
    var dot := LastIndexOf(name, '.');
    if name == ".." || dot <= 0 then "" else name[dot + 1..]
  }

  /** An extension as `Path::extension` returns it never contains a dot. */
  lemma ExtensionHasNoDot(p: string)
    ensures '.' !in StdExtension(p)
  {
  }

  /** Hence a path given as a string is never classified as FoundationDB. */
  lemma PathNeverFdb(connStr: string, isDir: bool, f: Features)
    ensures Chosen(GuessType(connStr, PathFacts(isDir, StdExtension(connStr)), f)) != Fdb
  {
    ExtensionHasNoDot(connStr);
    assert ".cluster"[0] == '.';
  }

  /** A cluster file such as "fdb.cluster" is classified as SQLite. */
  lemma ClusterPathIsSqlite(name: string, f: Features)
    requires ClusterFileName(name)
    ensures Chosen(GuessType(name + ".cluster", PathFacts(false, StdExtension(name + ".cluster")), f)) == Sqlite
  {
    PathNeverFdb(name + ".cluster", false, f);
  }

  /** `guess_type` with the comparison the source evidently intended: the
      extension, as `Path::extension` reports it, equal to "cluster". */
  function GuessTypeIntended(connStr: string, path: PathFacts, f: Features): (r: Result<DbConnType, DbConnError>)
    ensures r.Ok? || (r.error.DbDisabled? && r.error.connStr == connStr)
    ensures Chosen(r) == Fdb <==>
              !IsMysqlUrl(connStr) && !IsPostgresUrl(connStr) && !path.isDir && path.extension == "cluster"
    ensures path.extension != "cluster" && path.extension != ".cluster" ==> r == GuessType(connStr, path, f)
  {
    if StartsWith(connStr, "mysql:") then Admit(Mysql, f.mysql, connStr)
    else if StartsWith(connStr, "postgresql:") || StartsWith(connStr, "postgres:") then
      Admit(Pgsql, f.postgresql, connStr)
    else if path.isDir then Admit(Rdb, f.rdb, connStr)
    else if path.extension == "cluster" then Admit(Fdb, f.fdb, connStr)
    else Admit(Sqlite, f.sqlite, connStr)
  }

  /** A plain file name to which ".cluster" is appended: non-empty, without a
      directory part, and not itself a database URL. */
  predicate ClusterFileName(name: string)
  {
    && |name| > 0 && '/' !in name
    && !IsMysqlUrl(name + ".cluster") && !IsPostgresUrl(name + ".cluster")
  }

  /** `Path::extension` of "name.cluster" is "cluster". */
  lemma ClusterExtension(name: string)
    requires |name| > 0 && '/' !in name
    ensures StdExtension(name + ".cluster") == "cluster"
  {
    var p := name + ".cluster";
    LastIndexOfAbsent(p, '/');
    assert FileName(p) == p;
    LastIndexOfSuffix(name, ".cluster", '.', 0);
    assert p[|name| + 1..] == "cluster";
  }

  /** With the intended comparison, a cluster file selects FoundationDB. */
  lemma ClusterPathIsFdb(name: string, f: Features)
    requires ClusterFileName(name)
    ensures Chosen(GuessTypeIntended(name + ".cluster", PathFacts(false, StdExtension(name + ".cluster")), f)) == Fdb
  {
    ClusterExtension(name);
  }

  lemma {:induction false} LastIndexOfAbsent(s: string, c: char)
    requires c !in s
    ensures LastIndexOf(s, c) == -1
    decreases |s|
  {
    if |s| > 0 {
      assert s[..|s| - 1] <= s;
      LastIndexOfAbsent(s[..|s| - 1], c);
    }
  }

  /** When `c` occurs in `t` last at position `k`, it occurs in `s + t` last at `|s| + k`. */
  lemma {:induction false} LastIndexOfSuffix(s: string, t: string, c: char, k: nat)
    requires k < |t| && t[k] == c && forall j :: k < j < |t| ==> t[j] != c
    ensures LastIndexOf(s + t, c) == |s| + k
    decreases |t|
  {
    if k < |t| - 1 {
      assert (s + t)[..|s + t| - 1] == s + t[..|t| - 1];
      LastIndexOfSuffix(s, t[..|t| - 1], c, k);
    }
  }
}

=== FILE: conversion_error.dfy ===
/** `TypeConversionError` (src/new_db/error.rs): the preview of an undecodable
    byte slice and the error's `Display` text. */
module ConversionError {
  import opened ByteOrder

  /** The lower-case digit for a value below 16. */
  function Digit(d: nat): (c: char)
    requires d < 16
  {
    if d < 10 then ('0' as int + d) as char else ('a' as int + d - 10) as char
  }

  predicate IsHexDigit(c: char)
  {
    '0' <= c <= '9' || 'a' <= c <= 'f'
  }

  /** The preview shows at most this many positions (`max` in `new_from_bytes`). */
  const Max: nat := 10

  datatype TypeConversionError = TypeConversionError(
    fromTypeToString: string,
    fromType: string,
    toType: string)

  /** `{:#04x}` of a byte: "0x" and two lower-case hex digits. */
  function Hex(b: bv8): (s: string)
    ensures |s| == 4
  {
    "0x" + [Digit((b as int) / 16), Digit((b as int) % 16)]
  }

  /** "0x" followed by two hex digits. */
  lemma HexShape(b: bv8)
    ensures Hex(b)[..2] == "0x" && IsHexDigit(Hex(b)[2]) && IsHexDigit(Hex(b)[3])
  {
  }

  function HexDigitValue(c: char): nat
  {
    if '0' <= c <= '9' then (c as int) - ('0' as int)
    else if 'a' <= c <= 'f' then (c as int) - ('a' as int) + 10
    else 0
  }

  /** Reads back a byte written by `Hex`. */
  function ParseHex(s: string): int
    requires |s| == 4
  {
    HexDigitValue(s[2]) * 16 + HexDigitValue(s[3])
  }

  lemma HexRoundTrip(b: bv8)
    ensures ParseHex(Hex(b)) == b as int
  {
  }

  /** The value of a decimal digit. */
  function DigitValue(c: char): nat
  {
    if '0' <= c <= '9' then (c as int) - ('0' as int) else 0
  }

  /** `{}` of a `usize`: the decimal digits, no leading zero. */
  function Decimal(n: nat): (s: string)
    ensures |s| > 0
  {
    if n < 10 then [Digit(n)]
    else Decimal(n / 10) + [Digit(n % 10)]
  }

  /** Only decimal digits, and no leading zero. */
  lemma {:induction false} DecimalDigits(n: nat)
    ensures forall i :: 0 <= i < |Decimal(n)| ==> '0' <= Decimal(n)[i] <= '9'
    ensures |Decimal(n)| > 1 ==> Decimal(n)[0] != '0'
  {
    if n >= 10 {
      DecimalDigits(n / 10);
    }
  }

  function DecimalValue(s: string): nat
  {
    if |s| == 0 then 0
    else DecimalValue(s[..|s| - 1]) * 10 + DigitValue(s[|s| - 1])
  }

  lemma {:induction false} DecimalRoundTrip(n: nat)
    ensures DecimalValue(Decimal(n)) == n
  {
    var s := Decimal(n);
    assert s[..|s| - 1] == if n < 10 then [] else Decimal(n / 10);
    assert DigitValue(s[|s| - 1]) == n % 10;
    if n >= 10 {
      DecimalRoundTrip(n / 10);
    }
  }

  /** The hex bytes separated by ", ". */
  function JoinHex(bs: Bytes): string
  {
    if |bs| == 0 then ""
    else if |bs| == 1 then Hex(bs[0])
    else Hex(bs[0]) + ", " + JoinHex(bs[1..])
  }

  lemma {:induction false} JoinHexSnoc(bs: Bytes, b: bv8)
    requires |bs| > 0
    ensures JoinHex(bs + [b]) == JoinHex(bs) + ", " + Hex(b)
    decreases |bs|
  {
    if |bs| > 1 {
      assert (bs + [b])[1..] == bs[1..] + [b];
      JoinHexSnoc(bs[1..], b);
    } else {
      assert (bs + [b])[1..] == [b];
    }
  }

  lemma {:induction false} JoinHexEndsWithDigit(bs: Bytes)
    requires |bs| > 0
    ensures var s := JoinHex(bs); |s| >= 4 && IsHexDigit(s[|s| - 1])
    decreases |bs|
  {
    if |bs| > 1 {
      JoinHexEndsWithDigit(bs[1..]);
    } else {
      HexShape(bs[0]);
    }
  }

  /** The exclusive end of the loop over the slice: one short of the length
      for short slices, `Max` otherwise. */
  function IterUntil(n: nat): nat
    requires n >= 2
  {
    if n < Max then n - 1 else Max
  }

  /** Where the loop over the slice ends for a slice of `n >= 2` bytes (the loop
      does not run when `IterUntil(n) <= 2`). */
  function LoopEnd(n: nat): (e: nat)
    requires n >= 2
    ensures 2 <= e <= n
  {
    if IterUntil(n) > 2 then IterUntil(n) else 2
  }

  /** The positions of the slice that appear in its preview, in order. */
  function ShownIndices(n: nat): (idx: seq<nat>)
  {
    if n == 0 then []
    else if n == 1 then [0]
    else [0] + seq(LoopEnd(n) - 2, k => k + 2)
  }

  /** The bytes that appear in the preview, in order. */
  function Shown(val: Bytes): (bs: Bytes)
  {
    if |val| == 0 then []
    else if |val| == 1 then [val[0]]
    else [val[0]] + val[2..LoopEnd(|val|)]
  }

  /** The shown bytes are the bytes at the shown positions. */
  lemma ShownAtShownIndices(val: Bytes)
    ensures |Shown(val)| == |ShownIndices(|val|)|
    ensures forall k :: 0 <= k < |Shown(val)| ==>
              ShownIndices(|val|)[k] < |val| && Shown(val)[k] == val[ShownIndices(|val|)[k]]
  {
    if |val| >= 2 {
      var idx := ShownIndices(|val|);
      var bs := Shown(val);
      assert |bs| == |idx| == LoopEnd(|val|) - 1;
      forall k | 0 < k < |bs|
        ensures idx[k] < |val| && bs[k] == val[idx[k]]
      {
        assert idx[k] == k + 1;
        assert bs[k] == val[2..LoopEnd(|val|)][k - 1];
      }
    }
  }

  /** Whether the preview ends with an ellipsis. */
  predicate Elided(n: nat)
  {
    n >= 2 && IterUntil(n) >= Max
  }

  /** The preview text `new_from_bytes` stores. */
  function Render(val: Bytes): string
  {
    if |val| == 0 then "empty byte slice"
    else if |val| == 1 then "1 byte [" + Hex(val[0]) + "]"
    else LongText(val)
  }

  /** The preview of a slice of two or more bytes. */
  function LongText(val: Bytes): string
    requires |val| >= 2
  {
    Frame(|val|, Shown(val), Elided(|val|))
  }

  /** The layout shared by every multi-byte preview: the length, the listed
      bytes, and the ellipsis when `elided`. */
  function Frame(n: nat, shown: Bytes, elided: bool): string
  {
    Decimal(n) + " bytes [" + JoinHex(shown) + Ellipsis(elided) + "]"
  }

  function Ellipsis(elided: bool): string
  {
    if elided then ", ... " else ""
  }

  /** In a frame, listed byte `k` is printed at a fixed offset after the header. */
  lemma FrameShowsByte(n: nat, shown: Bytes, elided: bool, k: nat)
    requires k < |shown|
    ensures var off := |Decimal(n)| + 8 + 6 * k;
            off + 4 <= |Frame(n, shown, elided)| && Frame(n, shown, elided)[off..off + 4] == Hex(shown[k])
  {
    var h := Decimal(n) + " bytes [";
    var tail := Ellipsis(elided) + "]";
    assert Frame(n, shown, elided) == h + JoinHex(shown) + tail;
    JoinHexAt(shown, k);
    SliceOfConcat(Frame(n, shown, elided), h, JoinHex(shown), tail, 6 * k, Hex(shown[k]));
  }

  /** Exactly which positions are shown: the first, then the third onwards, up to
      but excluding position `Max` and, for slices shorter than `Max`, the last. */
  lemma ShownIndicesExactly(n: nat, i: nat)
    ensures i in ShownIndices(n) <==> (n >= 1 && i == 0) || (2 <= i < Max && (i + 1 < n || Max <= n))
  {
    var idx := ShownIndices(n);
    if n >= 2 && 2 <= i < Max && (i + 1 < n || Max <= n) {
      assert idx[i - 1] == i;
    }
    if n >= 2 && i in idx {
      var k :| 0 <= k < |idx| && idx[k] == i;
      if k > 0 {
        assert idx[k] == k + 1;
      }
    }
  }

  /** Every position read is inside the slice, ascending, and at most nine are read. */
  lemma ShownIndicesInBounds(n: nat)
    ensures forall k :: 0 <= k < |ShownIndices(n)| ==> ShownIndices(n)[k] < n
    ensures forall k, l :: 0 <= k < l < |ShownIndices(n)| ==> ShownIndices(n)[k] < ShownIndices(n)[l]
    ensures |ShownIndices(n)| <= Max - 1
    ensures n >= 1 ==> |ShownIndices(n)| >= 1
  {
  }

  /** The second byte of a slice is never part of its preview. */
  lemma SecondByteNeverShown(n: nat)
    ensures 1 !in ShownIndices(n)
  {
    ShownIndicesExactly(n, 1);
  }

  /** `new_from_bytes`, as written: the preview text it builds. */
  method PreviewBytes(val: Bytes) returns (s: string)
    ensures s == Render(val)
  {
    if |val| == 0 {
      s := "empty byte slice";
    } else if |val| == 1 {
      s := "1 byte [" + Hex(val[0]) + "]";
    } else {
      s := PreviewLong(val);
    }
  }

  /** The branch for two or more bytes: the loop reads `val[i]` for
      `2 <= i < iter_until`, every one of them inside the slice. */
  method PreviewLong(val: Bytes) returns (s: string)
    requires |val| >= 2
    ensures s == LongText(val)
  {
    var header := Decimal(|val|) + " bytes [";
    s := header + Hex(val[0]);
    var max := Max;
    var iterUntil := if |val| >= 2 && |val| < max then |val| - 1 else max;
    var i := 2;
    while i < iterUntil
      invariant 2 <= i <= LoopEnd(|val|)
      invariant s == header + JoinHex(Printed(val, i))
    {
      PrintedStep(val, i);
      s := s + ", " + Hex(val[i]);
      i := i + 1;
    }
    assert Printed(val, i) == Shown(val);
    if iterUntil >= max {
      s := s + ", ... ";
    }
    s := s + "]";
  }

  /** The bytes the loop has printed when it reaches position `i`. */
  function Printed(val: Bytes, i: nat): (bs: Bytes)
    requires 2 <= i <= |val|
    ensures |bs| == i - 1 && bs[0] == val[0]
  {
    [val[0]] + val[2..i]
  }

  /** One more pass of the loop appends ", " and the byte at `i`. */
  lemma PrintedStep(val: Bytes, i: nat)
    requires 2 <= i < |val|
    ensures JoinHex(Printed(val, i + 1)) == JoinHex(Printed(val, i)) + ", " + Hex(val[i])
  {
    assert Printed(val, i + 1) == Printed(val, i) + [val[i]];
    JoinHexSnoc(Printed(val, i), val[i]);
  }

  /** A preview of two or more bytes opens with the decimal length and " bytes ["
      and closes with "]"; a one-byte preview is "1 byte [0x..]". */
  lemma RenderFrame(val: Bytes)
    ensures |val| == 0 ==> Render(val) == "empty byte slice"
    ensures |val| == 1 ==> Render(val) == "1 byte [0x" + [Digit(val[0] as int / 16), Digit(val[0] as int % 16)] + "]"
    ensures |val| >= 2 ==> var s := Render(val); var h := Decimal(|val|) + " bytes [";
              |h| < |s| && s[..|h|] == h && s[|s| - 1] == ']'
  {
    if |val| >= 2 {
      FrameBounds(|val|, Shown(val), Elided(|val|));
    }
  }

  lemma FrameBounds(n: nat, shown: Bytes, elided: bool)
    ensures var s := Frame(n, shown, elided); var h := Decimal(n) + " bytes [";
            |h| < |s| && s[..|h|] == h && s[|s| - 1] == ']'
  {
    var h := Decimal(n) + " bytes [";
    var rest := JoinHex(shown) + Ellipsis(elided) + "]";
    assert Frame(n, shown, elided) == h + rest;
  }

  /** The ellipsis is there exactly when the slice has at least `Max` bytes: the
      preview ends in " ]" then, and in a hex digit and "]" otherwise. */
  lemma EllipsisIffLong(val: Bytes)
    requires |val| >= 2
    ensures var s := Render(val); |s| >= 2 && (s[|s| - 2] == ' ' <==> |val| >= Max)
    ensures var s := Render(val); |val| >= Max <==> (|s| >= 7 && s[|s| - 7..] == ", ... ]")
  {
    FrameEllipsis(|val|, Shown(val), Elided(|val|));
  }

  /** A frame listing at least one byte has a space before its closing bracket
      exactly when it is elided. */
  lemma FrameEllipsis(n: nat, shown: Bytes, elided: bool)
    requires |shown| > 0
    ensures var s := Frame(n, shown, elided); |s| >= 2 && (s[|s| - 2] == ' ' <==> elided)
    ensures var s := Frame(n, shown, elided); elided ==> |s| >= 7 && s[|s| - 7..] == ", ... ]"
  {
    var body := JoinHex(shown);
    JoinHexEndsWithDigit(shown);
    var pre := Decimal(n) + " bytes [" + body;
    assert Frame(n, shown, elided) == pre + Ellipsis(elided) + "]";
    if !elided {
      assert pre + Ellipsis(elided) + "]" == pre + "]";
      assert (pre + "]")[|pre| - 1] == body[|body| - 1];
    } else {
      assert (pre + Ellipsis(elided) + "]")[|pre| + 5] == ' ';
    }
  }

  /** `Display`: "failed to convert from {from_type} (value: {preview}) to {to_type}". */
  function Display(e: TypeConversionError): (s: string)
    ensures |s| == 23 + |e.fromType| + 9 + |e.fromTypeToString| + 5 + |e.toType|
  {
    "failed to convert from " + e.fromType + " (value: " + e.fromTypeToString + ") to " + e.toType
  }

  /** The message determines the preview once the two type names are known. */
  lemma DisplayDeterminesPreview(e1: TypeConversionError, e2: TypeConversionError)
    requires e1.fromType == e2.fromType && e1.toType == e2.toType
    requires Display(e1) == Display(e2)
    ensures e1.fromTypeToString == e2.fromTypeToString
  {
    var a := "failed to convert from " + e1.fromType + " (value: ";
    var c := ") to " + e1.toType;
    assert Display(e1) == a + e1.fromTypeToString + c;
    assert Display(e2) == a + e2.fromTypeToString + c;
    SliceOfConcat(Display(e1), a, e1.fromTypeToString, c, 0, e1.fromTypeToString);
    SliceOfConcat(Display(e2), a, e2.fromTypeToString, c, 0, e2.fromTypeToString);
  }

  /** `new_from_bytes::<To>`: the type names come from `std::any::type_name`. */
  method NewFromBytes(val: Bytes, sliceTypeName: string, toTypeName: string) returns (e: TypeConversionError)
    ensures e.fromTypeToString == Render(val)
    ensures e.fromType == sliceTypeName && e.toType == toTypeName
  {
    var preview := PreviewBytes(val);
    e := TypeConversionError(preview, sliceTypeName, toTypeName);
  }

  /** Each byte sits six characters after the previous one in a joined list. */
  lemma {:induction false} JoinHexAt(bs: Bytes, k: nat)
    requires k < |bs|
    ensures |JoinHex(bs)| == 6 * |bs| - 2
    ensures JoinHex(bs)[6 * k..6 * k + 4] == Hex(bs[k])
    decreases |bs|
  {
    if |bs| > 1 {
      var rest := JoinHex(bs[1..]);
      JoinHexAt(bs[1..], if k > 0 then k - 1 else 0);
      assert JoinHex(bs) == Hex(bs[0]) + ", " + rest;
      if k > 0 {
        assert JoinHex(bs)[6 * k..6 * k + 4] == rest[6 * (k - 1)..6 * (k - 1) + 4];
      }
    }
  }

  /** The preview the loop evidently meant to build: the first `Max` bytes (all of
      them for a shorter slice), with the ellipsis only when bytes were left out. */
  function RenderIntended(val: Bytes): string
  {
    if |val| == 0 then "empty byte slice"
    else if |val| == 1 then "1 byte [" + Hex(val[0]) + "]"
    else Frame(|val|, val[..Lead(|val|)], |val| > Max)
  }

  /** How many leading bytes the intended preview lists. */
  function Lead(n: nat): (m: nat)
    ensures m <= n && m <= Max
    ensures m == n || m == Max
  {
    if n < Max then n else Max
  }

  /** In the intended preview, byte `i` of the slice is printed at a fixed offset
      for every `i` below `min(len, Max)`, the second byte included. */
  lemma IntendedShowsLeadingBytes(val: Bytes, i: nat)
    requires |val| >= 2 && i < |val| && i < Max
    ensures var off := |Decimal(|val|)| + 8 + 6 * i;
            off + 4 <= |RenderIntended(val)| && RenderIntended(val)[off..off + 4] == Hex(val[i])
  {
    assert RenderIntended(val) == Frame(|val|, val[..Lead(|val|)], |val| > Max);
    IntendedFrameShowsByte(val, i);
  }

  lemma IntendedFrameShowsByte(val: Bytes, i: nat)
    requires |val| >= 2 && i < |val| && i < Max
    ensures var off := |Decimal(|val|)| + 8 + 6 * i; var f := Frame(|val|, val[..Lead(|val|)], |val| > Max);
            off + 4 <= |f| && f[off..off + 4] == Hex(val[i])
  {
    var p := val[..Lead(|val|)];
    assert p[i] == val[i];
    FrameShowsByte(|val|, p, |val| > Max, i);
  }

  lemma SliceOfConcat(s: string, a: string, b: string, c: string, k: nat, x: string)
    requires s == a + b + c
    requires k + |x| <= |b| && b[k..k + |x|] == x
    ensures |a| + k + |x| <= |s| && s[|a| + k..|a| + k + |x|] == x
  {
    assert s[|a| + k..|a| + k + |x|] == b[k..k + |x|];
  }

  /** The written loop drops the second and the last byte of a three-byte slice. */
  lemma WrittenPreviewOfThreeBytes()
    ensures Render([0x01, 0x02, 0x03]) == "3 bytes [0x01]"
  {
    var v: Bytes := [0x01, 0x02, 0x03];
    assert Shown(v) == [0x01];
    assert !Elided(3);
    SmallTexts();
    assert Frame(3, [0x01], false) == "3" + " bytes [" + "0x01" + "" + "]";
  }

  /** The intended preview of the same slice shows all three bytes. */
  lemma IntendedPreviewOfThreeBytes()
    ensures RenderIntended([0x01, 0x02, 0x03]) == "3 bytes [0x01, 0x02, 0x03]"
  {
    var v: Bytes := [0x01, 0x02, 0x03];
    assert v[..Lead(3)] == v;
    assert RenderIntended(v) == Frame(3, v, false);
    SmallTexts();
    JoinThree();
    assert Frame(3, v, false) == "3" + " bytes [" + "0x01, 0x02, 0x03" + "" + "]";
  }

  lemma SmallTexts()
    ensures Decimal(3) == "3"
    ensures Hex(0x01) == "0x01" && Hex(0x02) == "0x02" && Hex(0x03) == "0x03"
    ensures JoinHex([0x01]) == "0x01"
  {
  }

  lemma JoinThree()
    ensures JoinHex([0x01, 0x02, 0x03]) == "0x01, 0x02, 0x03"
  {
    var v: Bytes := [0x01, 0x02, 0x03];
    SmallTexts();
    assert v[1..] == [0x02, 0x03] && v[1..][1..] == [0x03];
    assert JoinHex([0x02, 0x03]) == "0x02" + ", " + "0x03";
  }
}

=== FILE: keyspace.dfy ===
/** The RocksDB keyspace: an immutable byte prefix that namespaces keys
    (src/new_db/custom_backends/rdb.rs, `RdbKeyspace`). */
module Keyspaces {
  import opened Wrappers
  import opened ByteOrder

  /** ASCII Unit Separator, appended after every namespace component. */
  const Separator: bv8 := 0x1F

  /** `SCHEMA_VERSION`, the bytes of "v2" (src/new_db/mod.rs). */
  const SchemaVersion: Bytes := [0x76, 0x32]

  datatype Keyspace = Keyspace(bytes: Bytes)

  /** The universal keyspace: no prefix at all, so every key lies under it. */
  function All(): (k: Keyspace)
    ensures forall key: Bytes :: IsPrefix(k.bytes, key)
  {
    Keyspace([])
  }

  /** A top-level keyspace named `b`: the name followed by one separator. */
  function FromBytes(b: Bytes): (k: Keyspace)
    ensures IsPrefix(b, k.bytes) && |k.bytes| == |b| + 1
    ensures k.bytes[|b|] == Separator
  {
    Keyspace(b + [Separator])
  }

  /** `keyspace(child)`: a sub-namespace of `parent`. */
  function Child(parent: Keyspace, child: Bytes): (k: Keyspace)
    ensures IsPrefix(parent.bytes, k.bytes)
    ensures |k.bytes| == |parent.bytes| + |child| + 1
    ensures k.bytes[|parent.bytes|..|parent.bytes| + |child|] == child
    ensures k.bytes[|k.bytes| - 1] == Separator
  {
    FromBytes(parent.bytes + child)
  }

  /** A literal key under `ks`: no separator is added. */
  function Pack(ks: Keyspace, b: Bytes): (key: Bytes)
    ensures IsPrefix(ks.bytes, key)
    ensures |key| == |ks.bytes| + |b|
  {
    ks.bytes + b
  }

  /** `strip_prefix`: the key with the keyspace's bytes removed, if it starts with them. */
  function Unpack(ks: Keyspace, key: Bytes): (r: Option<Bytes>)
    ensures r.Some? <==> IsPrefix(ks.bytes, key)
    ensures r.Some? ==> Pack(ks, r.value) == key
  {
    if |ks.bytes| <= |key| && key[..|ks.bytes|] == ks.bytes then
      assert key == key[..|ks.bytes|] + key[|ks.bytes|..];
      Some(key[|ks.bytes|..])
    else None
  }

  /** `range()`: the inclusive bounds `(prefix ++ [0x00], prefix ++ [0xFF])`. */
  function Range(ks: Keyspace): (bounds: (Bytes, Bytes))
    ensures Less(bounds.0, bounds.1)
    ensures IsPrefix(ks.bytes, bounds.0) && IsPrefix(ks.bytes, bounds.1)
  {
    LessCommonPrefix(ks.bytes, [0x00], [0xFF]);
    (ks.bytes + [0x00], ks.bytes + [0xFF])
  }

  /** The keyspace a RocksDB connection works in (rdb.rs, `establish`). */
  function ConnectionKeyspace(name: Bytes): (k: Keyspace)
    ensures IsPrefix(FromBytes(name).bytes, k.bytes)
    ensures |k.bytes| == |name| + |SchemaVersion| + 2
  {
    Child(FromBytes(name), SchemaVersion)
  }

  predicate NoSeparator(b: Bytes)
  {
    forall i :: 0 <= i < |b| ==> b[i] != Separator
  }

  lemma AllIsIdentity(b: Bytes)
    ensures Pack(All(), b) == b
    ensures Unpack(All(), b) == Some(b)
    ensures FromBytes(b) == Child(All(), b)
  {
  }

  /** `unpack` succeeds exactly when the keyspace bytes are a common prefix of
      themselves and the key, in full. */
  lemma UnpackByCommonPrefix(ks: Keyspace, key: Bytes)
    ensures Unpack(ks, key).Some? <==> CommonPrefixLength(ks.bytes, key) == |ks.bytes|
  {
  }

  lemma ConnectionKeyspaceLayout(name: Bytes)
    ensures ConnectionKeyspace(name).bytes == name + [0x1F, 0x76, 0x32, 0x1F]
    ensures IsPrefix(FromBytes(name).bytes, ConnectionKeyspace(name).bytes)
  {
  }

  lemma PackUnpackRoundTrip(ks: Keyspace, b: Bytes)
    ensures Unpack(ks, Pack(ks, b)) == Some(b)
  {
    assert (ks.bytes + b)[|ks.bytes|..] == b;
  }

  /** Keys of a child keyspace are keys of its parent too: unpacking through the
      parent yields the child bytes, the separator and the literal key. */
  lemma ChildKeysUnpackUnderParent(parent: Keyspace, child: Bytes, b: Bytes)
    ensures Unpack(parent, Pack(Child(parent, child), b)) == Some(child + [Separator] + b)
  {
    assert Pack(Child(parent, child), b) == parent.bytes + (child + [Separator] + b);
    PackUnpackRoundTrip(parent, child + [Separator] + b);
  }

  /** Siblings whose names are distinct and free of the separator never nest. */
  lemma SiblingsDisjoint(parent: Keyspace, c1: Bytes, c2: Bytes)
    requires c1 != c2 && NoSeparator(c1) && NoSeparator(c2)
    ensures !IsPrefix(Child(parent, c1).bytes, Child(parent, c2).bytes)
  {
  }

  /** A key packed under one sibling never unpacks under another. */
  lemma SiblingKeysIsolated(parent: Keyspace, c1: Bytes, c2: Bytes, b: Bytes)
    requires c1 != c2 && NoSeparator(c1) && NoSeparator(c2)
    ensures Unpack(Child(parent, c2), Pack(Child(parent, c1), b)).None?
  {
  }

  /** The `range()` intervals of two such siblings never overlap: one lies wholly
      below the other. */
  lemma SiblingRangesDisjoint(parent: Keyspace, c1: Bytes, c2: Bytes)
    requires c1 != c2 && NoSeparator(c1) && NoSeparator(c2)
    ensures Less(Range(Child(parent, c1)).1, Range(Child(parent, c2)).0)
         || Less(Range(Child(parent, c2)).1, Range(Child(parent, c1)).0)
  {
    SiblingsDisjoint(parent, c1, c2);
    SiblingsDisjoint(parent, c2, c1);
    DivergingRangesDisjoint(Child(parent, c1), Child(parent, c2));
  }

  /** Keyspaces neither of which is a prefix of the other have disjoint ranges. */
  lemma DivergingRangesDisjoint(a: Keyspace, b: Keyspace)
    requires !IsPrefix(a.bytes, b.bytes) && !IsPrefix(b.bytes, a.bytes)
    ensures Less(Range(a).1, Range(b).0) || Less(Range(b).1, Range(a).0)
  {
    var k1, k2 := a.bytes, b.bytes;
    var n := CommonPrefixLength(k1, k2);
    assert n < |k1| && n < |k2|;
    var lo1, hi1 := Range(a).0, Range(a).1;
    var lo2, hi2 := Range(b).0, Range(b).1;
    assert hi1[..n] == k1[..n] == k2[..n] == lo2[..n];
    assert hi2[..n] == k2[..n] == k1[..n] == lo1[..n];
    if k1[n] < k2[n] {
      LessAtFirstDifference(hi1, lo2, n);
    } else {
      LessAtFirstDifference(hi2, lo1, n);
    }
  }

  /** The collision the separator only makes unlikely: a child name containing
      0x1F makes one sibling's keys unpack under another. */
  lemma SeparatorInNameCollides()
    ensures var a := Child(All(), [0x61]);
            var b := Child(All(), [0x61, 0x1F, 0x62]);
            Unpack(a, Pack(b, [0x63])) == Some([0x62, 0x1F, 0x63])
  {
    assert Pack(Child(All(), [0x61, 0x1F, 0x62]), [0x63]) == [0x61, 0x1F] + [0x62, 0x1F, 0x63];
  }

  /** Every key between the bounds of `range()` starts with the keyspace's bytes. */
  lemma RangeKeysHavePrefix(ks: Keyspace, key: Bytes)
    requires LessEq(Range(ks).0, key) && LessEq(key, Range(ks).1)
    ensures IsPrefix(ks.bytes, key)
  {
    if !IsPrefix(ks.bytes, key) {
      OutsideRangeUnlessPrefixed(ks, key);
      if Less(key, Range(ks).0) {
        LessEqNotLess(Range(ks).0, key);
      } else {
        LessEqNotLess(key, Range(ks).1);
      }
      assert false;
    }
  }

  /** A key without the keyspace's prefix sorts below or above its `range()`. */
  lemma OutsideRangeUnlessPrefixed(ks: Keyspace, key: Bytes)
    requires !IsPrefix(ks.bytes, key)
    ensures Less(key, Range(ks).0) || Less(Range(ks).1, key)
  {
    var p := ks.bytes;
    var lo, hi := p + [0x00], p + [0xFF];
    var n := CommonPrefixLength(p, key);
    assert p[..n] == p ==> IsPrefix(p, key);
    if n == |key| {
      assert lo == key + (p[n..] + [0x00]);
      LessProperPrefix(key, p[n..] + [0x00]);
    } else if key[n] < p[n] {
      assert lo[..n] == p[..n] && lo[n] == p[n];
      LessAtFirstDifference(key, lo, n);
    } else {
      assert hi[..n] == p[..n] && hi[n] == p[n];
      LessAtFirstDifference(hi, key, n);
    }
  }

  /** The bounds are not exhaustive: the keyspace's own bytes and keys continuing
      with 0xFF and more carry the prefix yet fall outside `range()`. */
  lemma RangeOmitsSomeKeys(ks: Keyspace)
    ensures Less(Pack(ks, []), Range(ks).0)
    ensures Less(Range(ks).1, Pack(ks, [0xFF, 0x00]))
  {
    assert Pack(ks, []) == ks.bytes;
    LessProperPrefix(ks.bytes, [0x00]);
    assert ks.bytes + [0xFF, 0x00] == (ks.bytes + [0xFF]) + [0x00];
    LessProperPrefix(ks.bytes + [0xFF], [0x00]);
  }

  /** Keys of a child keyspace lie strictly inside the parent's `range()`
      unless the child's name begins with 0xFF. */
  lemma ChildKeysInsideRange(parent: Keyspace, child: Bytes, b: Bytes)
    requires |child| == 0 || child[0] != 0xFF
    ensures Less(Range(parent).0, Pack(Child(parent, child), b))
    ensures Less(Pack(Child(parent, child), b), Range(parent).1)
  {
    var p := parent.bytes;
    var rest := child + [Separator] + b;
    assert Pack(Child(parent, child), b) == p + rest;
    assert rest[0] == if |child| == 0 then Separator else child[0];
    LessCommonPrefix(p, [0x00], rest);
    LessCommonPrefix(p, rest, [0xFF]);
    if rest[0] == 0x00 {
      assert rest == [0x00] + rest[1..];
      LessProperPrefix([0x00], rest[1..]);
    }
  }
}

=== FILE: range_read.dfy ===
/** `RdbTransaction::get_range` (src/new_db/custom_backends/rdb.rs): a bounded scan
    of the RocksDB key order. The store is the transaction's view, a sequence of
    entries in strictly ascending key order. */
module RangeRead {
  import opened ByteOrder

  datatype Entry = Entry(key: Bytes, value: Bytes)

  predicate Ascending(s: seq<Entry>)
  {
    forall i, j :: 0 <= i < j < |s| ==> Less(s[i].key, s[j].key)
  }

  predicate Descending(s: seq<Entry>)
  {
    forall i, j :: 0 <= i < j < |s| ==> Less(s[j].key, s[i].key)
  }

  /** Both bounds inclusive. */
  predicate Between(from: Bytes, key: Bytes, to: Bytes)
  {
    LessEq(from, key) && LessEq(key, to)
  }

  /** The iterator of `IteratorMode::From(k, Direction::Forward)`: every entry
      at or after `k`, ascending. */
  function SeekForward(store: seq<Entry>, k: Bytes): (it: seq<Entry>)
    requires Ascending(store)
    ensures Ascending(it)
    ensures forall e :: e in it <==> e in store && LessEq(k, e.key)
  {
    if |store| == 0 then []
    else
      var rest := SeekForward(store[1..], k);
      assert forall e :: e in store <==> e == store[0] || e in store[1..];
      if LessEq(k, store[0].key) then [store[0]] + rest else rest
  }

  /** The iterator of `IteratorMode::From(k, Direction::Reverse)`: every entry
      at or before `k`, descending. */
  function SeekReverse(store: seq<Entry>, k: Bytes): (it: seq<Entry>)
    requires Ascending(store)
    ensures Descending(it)
    ensures forall e :: e in it <==> e in store && LessEq(e.key, k)
  {
    if |store| == 0 then []
    else
      var last := store[|store| - 1];
      var rest := SeekReverse(store[..|store| - 1], k);
      assert forall e :: e in store <==> e == last || e in store[..|store| - 1];
      if LessEq(last.key, k) then [last] + rest else rest
  }

  /** Where `get_range` positions its iterator: at `from` going forward, or at
      `to` going backward. */
  function Seek(store: seq<Entry>, forward: bool, from: Bytes, to: Bytes): seq<Entry>
    requires Ascending(store)
  {
    if forward then SeekForward(store, from) else SeekReverse(store, to)
  }

  /** The loop's stopping test: forward scans stop above `to`, reverse scans
      below `from`; the bound itself is kept. */
  predicate KeepGoing(forward: bool, from: Bytes, to: Bytes, key: Bytes)
  {
    if forward then !Less(to, key) else !Less(key, from)
  }

  /** `get_range(from, to)`: forward from `from` when `from < to`, otherwise
      backward from `to`, stopping at the first key past the other bound. */
  method GetRange(store: seq<Entry>, from: Bytes, to: Bytes) returns (r: seq<Entry>)
    requires Ascending(store)
    ensures forall e :: e in r <==> e in store && Between(from, e.key, to)
    ensures Ascending(r)
    ensures from == to ==> |r| <= 1
    ensures Less(to, from) ==> r == []
  {
    var forward := Less(from, to);
    var it := Seek(store, forward, from, to);
    r := [];
    var i := 0;
    while i < |it| && KeepGoing(forward, from, to, it[i].key)
      invariant 0 <= i <= |it|
      invariant r == it[..i]
      invariant forall j :: 0 <= j < i ==> Between(from, it[j].key, to)
    {
      KeptIsBetween(forward, store, from, to, it, i);
      r := r + [it[i]];
      i := i + 1;
    }
    ScanResult(forward, store, from, to, it, i);
  }

  /** What the scan collected once it stopped: exactly the entries between the bounds. */
  lemma ScanResult(forward: bool, store: seq<Entry>, from: Bytes, to: Bytes, it: seq<Entry>, i: nat)
    requires Ascending(store)
    requires forward == Less(from, to)
    requires it == Seek(store, forward, from, to)
    requires i <= |it| && (i == |it| || !KeepGoing(forward, from, to, it[i].key))
    requires forall j :: 0 <= j < i ==> Between(from, it[j].key, to)
    ensures forall e :: e in it[..i] <==> e in store && Between(from, e.key, to)
    ensures Ascending(it[..i])
    ensures from == to ==> i <= 1
    ensures Less(to, from) ==> i == 0
  {
    ScanComplete(forward, store, from, to, it, i);
    ScanSound(forward, store, from, to, it, i);
    if forward {
      assert Ascending(it[..i]);
      if from == to {
        LessIrreflexive(from);
      } else if Less(to, from) {
        LessAsymmetric(from, to);
      }
    } else {
      SameKeyWhenReversed(store, from, to, it[..i]);
      if Less(to, from) && i > 0 {
        assert it[0] in it[..i];
        NothingBetweenInverted(from, it[0].key, to);
      }
    }
  }

  lemma ScanComplete(forward: bool, store: seq<Entry>, from: Bytes, to: Bytes, it: seq<Entry>, i: nat)
    requires Ascending(store)
    requires it == Seek(store, forward, from, to)
    requires i <= |it| && (i == |it| || !KeepGoing(forward, from, to, it[i].key))
    ensures forall e :: e in store && Between(from, e.key, to) ==> e in it[..i]
  {
    forall e | e in store && Between(from, e.key, to)
      ensures e in it[..i]
    {
      StoppedBeyondBound(forward, store, from, to, it, i, e);
    }
  }

  lemma ScanSound(forward: bool, store: seq<Entry>, from: Bytes, to: Bytes, it: seq<Entry>, i: nat)
    requires Ascending(store)
    requires it == Seek(store, forward, from, to)
    requires i <= |it|
    requires forall j :: 0 <= j < i ==> Between(from, it[j].key, to)
    ensures forall e :: e in it[..i] ==> e in store && Between(from, e.key, to)
  {
    forall e | e in it[..i]
      ensures e in store && Between(from, e.key, to)
    {
      var j :| 0 <= j < i && it[..i][j] == e;
      assert it[j] in it;
    }
  }

  lemma NothingBetweenInverted(from: Bytes, k: Bytes, to: Bytes)
    requires Less(to, from)
    ensures !Between(from, k, to)
  {
    if Between(from, k, to) {
      LessEqTransitive(from, k, to);
      LessEqNotLess(from, to);
    }
  }

  /** An entry the loop keeps lies between the bounds. */
  lemma KeptIsBetween(forward: bool, store: seq<Entry>, from: Bytes, to: Bytes, it: seq<Entry>, i: nat)
    requires Ascending(store)
    requires it == Seek(store, forward, from, to)
    requires i < |it| && KeepGoing(forward, from, to, it[i].key)
    ensures Between(from, it[i].key, to)
  {
    assert it[i] in it;
    LessTotal(from, it[i].key);
    LessTotal(it[i].key, to);
  }

  /** Once the loop stops, no entry between the bounds is left in the iterator. */
  lemma StoppedBeyondBound(forward: bool, store: seq<Entry>, from: Bytes, to: Bytes,
                           it: seq<Entry>, i: nat, e: Entry)
    requires Ascending(store)
    requires it == Seek(store, forward, from, to)
    requires i <= |it| && (i == |it| || !KeepGoing(forward, from, to, it[i].key))
    requires e in store && Between(from, e.key, to)
    ensures e in it[..i]
  {
    assert e in it;
    var j :| 0 <= j < |it| && it[j] == e;
    if j >= i {
      if forward {
        if j > i {
          LessTransitive(to, it[i].key, e.key);
        }
        LessEqNotLess(e.key, to);
      } else {
        if j > i {
          LessTransitive(e.key, it[i].key, from);
        }
        LessEqNotLess(from, e.key);
      }
      assert false;
    }
    assert it[..i][j] == e;
  }

  /** A reverse scan happens only when `to <= from`; then at most one key fits. */
  lemma SameKeyWhenReversed(store: seq<Entry>, from: Bytes, to: Bytes, r: seq<Entry>)
    requires !Less(from, to)
    requires forall e :: e in r ==> Between(from, e.key, to)
    requires Ascending(store) && |r| <= |SeekReverse(store, to)| && r == SeekReverse(store, to)[..|r|]
    ensures |r| <= 1
  {
    if |r| >= 2 {
      LessIrreflexive(from);
      assert r[0] in r && r[1] in r;
      LessTotal(from, to);
      SqueezedEqual(from, r[0].key, to);
      SqueezedEqual(from, r[1].key, to);
      assert false;
    }
  }

  lemma SqueezedEqual(from: Bytes, k: Bytes, to: Bytes)
    requires LessEq(to, from) && LessEq(from, k) && LessEq(k, to)
    ensures k == from
  {
    LessEqTransitive(k, to, from);
    LessEqAntisymmetric(from, k);
  }
}

=== FILE: retry.dfy ===
/** `RdbConnection::transact` (src/new_db/custom_backends/rdb.rs): the bounded
    optimistic retry loop. What the closure and RocksDB do on each attempt is an
    oracle: `attempts[i]` is what happens in the `i`-th transaction opened, and
    the oracle covers at least the configured number of attempts. */
module Retry {
  import opened Wrappers

  /** The RocksDB error kinds the loop tells apart; every other kind is `Other`. */
  datatype ErrorKind = Busy | TryAgain | Other(name: string)

  datatype RdbError = RdbError(kind: ErrorKind, message: string)

  /** `TransactionError` with the RocksDB backend compiled in (src/new_db/error.rs). */
  datatype TransactionError =
    | SerializationError(message: string)
    | RdbTrxFailed(cause: RdbError)

  /** How one attempt ends: the closure fails (and the rollback succeeds or not),
      or the closure succeeds (and the commit succeeds or not). */
  datatype Attempt<T> =
    | ClosureFailed(error: TransactionError, rollback: Option<RdbError>)
    | ClosureSucceeded(value: T, commit: Option<RdbError>)

  /** The loop's result; `Panic` is `last_error.unwrap()` on `None`. */
  datatype Outcome<T> = Returned(result: Result<T, TransactionError>) | Panic

  predicate Retryable(e: RdbError)
  {
    e.kind == Busy || e.kind == TryAgain
  }

  /** An attempt whose commit hit a write conflict, the only case that loops again. */
  predicate IsConflict<T>(a: Attempt<T>)
  {
    a.ClosureSucceeded? && a.commit.Some? && Retryable(a.commit.value)
  }

  /** The Busy/TryAgain error a conflicting attempt's commit reported. */
  function ConflictError<T>(a: Attempt<T>): RdbError
    requires IsConflict(a)
  {
    a.commit.value
  }

  /** What a non-conflicting attempt returns. */
  function Settle<T>(a: Attempt<T>): Result<T, TransactionError>
    requires !IsConflict(a)
  {
    match a
    case ClosureFailed(e, None) => Err(e)
    case ClosureFailed(_, Some(re)) => Err(RdbTrxFailed(re))
    case ClosureSucceeded(v, None) => Ok(v)
    case ClosureSucceeded(_, Some(re)) => Err(RdbTrxFailed(re))
  }

  /** The loop from iteration `i` on, with `last` the last conflict seen;
      returns the outcome and how many transactions were opened in all. */
  function Run<T>(attempts: seq<Attempt<T>>, retryAttempts: nat, i: nat,
                  last: Option<RdbError>): (res: (Outcome<T>, nat))
    requires i <= retryAttempts <= |attempts|
    requires i > 0 <==> last.Some?
    ensures i <= res.1 <= retryAttempts
    ensures res.0.Panic? <==> retryAttempts == 0
    ensures i < res.1 ==> forall j :: i <= j < res.1 - 1 ==> IsConflict(attempts[j])
    ensures i < res.1 < retryAttempts ==> !IsConflict(attempts[res.1 - 1])
    decreases retryAttempts - i
  {
    if i == retryAttempts then
      match last
      case None => (Panic, i)
      case Some(e) => (Returned(Err(RdbTrxFailed(e))), i)
    else
      var a := attempts[i];
      if IsConflict(a) then Run(attempts, retryAttempts, i + 1, Some(ConflictError(a)))
      else (Returned(Settle(a)), i + 1)
  }

  /** `transact(f)` with `retry_attempts` as configured. */
  function Transact<T>(attempts: seq<Attempt<T>>, retryAttempts: nat): (res: (Outcome<T>, nat))
    requires retryAttempts <= |attempts|
    ensures res.1 <= retryAttempts
    ensures res.0.Panic? <==> retryAttempts == 0
  {
    Run(attempts, retryAttempts, 0, None)
  }

  /** The first attempt in `[0, n)` that does not conflict, if any. */
  function FirstSettled<T>(attempts: seq<Attempt<T>>, n: nat): (k: Option<nat>)
    requires n <= |attempts|
    ensures k.Some? ==> k.value < n && !IsConflict(attempts[k.value])
    ensures k.Some? ==> forall j :: 0 <= j < k.value ==> IsConflict(attempts[j])
    ensures k.None? ==> forall j :: 0 <= j < n ==> IsConflict(attempts[j])
  {
    if n == 0 then None
    else
      var k := FirstSettled(attempts, n - 1);
      if k.Some? then k
      else if !IsConflict(attempts[n - 1]) then Some(n - 1)
      else None
  }

  /** The loop agrees with a direct description: the first attempt that does not
      conflict decides the result after opening that many transactions; if all
      `retryAttempts` attempts conflict, the last conflict is returned. */
  lemma {:induction false} TransactDecidedByFirstSettled<T>(attempts: seq<Attempt<T>>, n: nat)
    requires 0 < n <= |attempts|
    ensures var k := FirstSettled(attempts, n);
            Transact(attempts, n) ==
              if k.Some? then (Returned(Settle(attempts[k.value])), k.value + 1)
              else (Returned(Err(RdbTrxFailed(ConflictError(attempts[n - 1])))), n)
  {
    var k := FirstSettled(attempts, n);
    var stop := if k.Some? then k.value else n;
    RunSkipsConflicts(attempts, n, 0, None, stop);
  }

  /** Conflicting attempts from `i` up to `stop` only carry the last conflict forward. */
  lemma {:induction false} RunSkipsConflicts<T>(attempts: seq<Attempt<T>>, n: nat, i: nat,
                                               last: Option<RdbError>, stop: nat)
    requires i <= stop <= n <= |attempts| && (i > 0 <==> last.Some?)
    requires forall j :: i <= j < stop ==> IsConflict(attempts[j])
    requires stop < n ==> !IsConflict(attempts[stop])
    ensures Run(attempts, n, i, last) ==
              if stop < n then (Returned(Settle(attempts[stop])), stop + 1)
              else if stop == i then
                (if last.None? then (Panic, i) else (Returned(Err(RdbTrxFailed(last.value))), i))
              else (Returned(Err(RdbTrxFailed(ConflictError(attempts[n - 1])))), n)
    decreases n - i
  {
    if i < stop {
      RunSkipsConflicts(attempts, n, i + 1, Some(ConflictError(attempts[i])), stop);
    }
  }

  /** A closure error rolls back and is returned on that very attempt: no commit,
      no further transaction. */
  lemma ClosureErrorNotRetried<T>(attempts: seq<Attempt<T>>, n: nat, k: nat)
    requires k < n <= |attempts|
    requires forall j :: 0 <= j < k ==> IsConflict(attempts[j])
    requires attempts[k].ClosureFailed? && attempts[k].rollback.None?
    ensures Transact(attempts, n) == (Returned(Err(attempts[k].error)), k + 1)
  {
    RunSkipsConflicts(attempts, n, 0, None, k);
  }

  /** A commit failure other than Busy/TryAgain is returned at once. */
  lemma FatalCommitNotRetried<T>(attempts: seq<Attempt<T>>, n: nat, k: nat)
    requires k < n <= |attempts|
    requires forall j :: 0 <= j < k ==> IsConflict(attempts[j])
    requires attempts[k].ClosureSucceeded? && attempts[k].commit.Some?
    requires !Retryable(attempts[k].commit.value)
    ensures Transact(attempts, n) == (Returned(Err(RdbTrxFailed(attempts[k].commit.value))), k + 1)
  {
    RunSkipsConflicts(attempts, n, 0, None, k);
  }

  /** When every attempt conflicts, exactly `retryAttempts` transactions are opened
      and the last conflict is returned. */
  lemma AllConflictsExhaustBound<T>(attempts: seq<Attempt<T>>, n: nat)
    requires 0 < n <= |attempts|
    requires forall j :: 0 <= j < n ==> IsConflict(attempts[j])
    ensures Transact(attempts, n) == (Returned(Err(RdbTrxFailed(ConflictError(attempts[n - 1])))), n)
  {
    RunSkipsConflicts(attempts, n, 0, None, n);
  }

  /** A successful result always comes from a closure success whose commit went through. */
  lemma OkMeansCommitted<T>(attempts: seq<Attempt<T>>, n: nat)
    requires n <= |attempts|
    requires Transact(attempts, n).0.Returned? && Transact(attempts, n).0.result.Ok?
    ensures var used := Transact(attempts, n).1;
            used > 0 && attempts[used - 1] == ClosureSucceeded(Transact(attempts, n).0.result.value, None)
  {
    TransactDecidedByFirstSettled(attempts, n);
  }
}

=== FILE: schema.dfy ===
/** The tables declared with `fdb_table!` in src/db/schemas/fdb/schema.rs, as
    descriptor values: a name, the primary key's column names, the numbered
    columns and the optional `<- (..)` index columns. */
module Schema {

  /** The declared Rust type of a column. */
  datatype ColumnType =
    | Str | U64 | I32 | I64 | Bool | DateTime | Binary
    | Optional(inner: ColumnType)

  /** A column and its stable tag (the `= N` after its type). */
  datatype Column = Column(name: string, ty: ColumnType, tag: nat)

  datatype Table = Table(name: string, primaryKey: seq<string>, columns: seq<Column>, index: seq<string>)

  predicate Declares(t: Table, name: string)
  {
    exists i :: 0 <= i < |t.columns| && t.columns[i].name == name
  }

  /** Column tags never repeat within a table. */
  predicate DistinctTags(cols: seq<Column>)
  {
    forall i, j :: 0 <= i < j < |cols| ==> cols[i].tag != cols[j].tag
  }

  /** A non-empty primary key made of declared columns, distinct column tags, and
      index columns that are declared and part of the primary key. The last
      clause is an observation about the one index the tables declare
      (group's), not a rule the storage layer enforces. */
  predicate WellFormed(t: Table)
  {
    && |t.primaryKey| > 0
    && (forall k :: k in t.primaryKey ==> Declares(t, k))
    && (forall k :: k in t.index ==> Declares(t, k) && k in t.primaryKey)
    && DistinctTags(t.columns)
  }

  /** A run of column declarations whose tags count up from `first`, as the
      declarations in the file do (event's run breaks once, after tag 14). */
  function Numbered(decls: seq<(string, ColumnType)>, first: nat): (cols: seq<Column>)
    ensures |cols| == |decls| && TagsIncreasing(cols)
    ensures |cols| > 0 ==> cols[0].tag == first && cols[|cols| - 1].tag == first + |cols| - 1
  {
    seq(|decls|, i requires 0 <= i < |decls| => Column(decls[i].0, decls[i].1, first + i))
  }

  /** Tags increase strictly along the declarations. */
  predicate TagsIncreasing(cols: seq<Column>)
  {
    forall i, j :: 0 <= i < j < |cols| ==> cols[i].tag < cols[j].tag
  }

  /** Two increasing runs, the second starting above the first, stay increasing. */
  lemma AppendIncreasing(a: seq<Column>, b: seq<Column>)
    requires TagsIncreasing(a) && TagsIncreasing(b)
    requires |a| > 0 && |b| > 0 ==> a[|a| - 1].tag < b[0].tag
    ensures TagsIncreasing(a + b)
  {
    var c := a + b;
    forall i, j | 0 <= i < j < |c|
      ensures c[i].tag < c[j].tag
    {
      if i < |a| && j >= |a| {
        assert c[i].tag <= a[|a| - 1].tag by {
          if i < |a| - 1 {
            assert a[i].tag < a[|a| - 1].tag;
          }
        }
        assert b[0].tag <= c[j].tag by {
          if j > |a| {
            assert b[0].tag < b[j - |a|].tag;
          }
        }
      }
    }
  }

  lemma IncreasingDistinct(cols: seq<Column>)
    requires TagsIncreasing(cols)
    ensures DistinctTags(cols)
  {
  }

  // ---- the declared tables ----

  function Attachments(): Table
  {
    Table("attachments", ["id"],
      Numbered([
      ("id", Str), ("cipher_uuid", Str), ("file_name", Str), ("file_size", U64),
       ("akey", Optional(Str))], 0),
      [])
  }

  function Cipher(): Table
  {
    Table("cipher", ["uuid"],
      Numbered([
      ("uuid", Str), ("created_at", DateTime), ("updated_at", DateTime),
       ("user_uuid", Optional(Str)), ("organization_uuid", Str), ("key", Optional(Str)),
       ("atype", I32), ("name", Str), ("notes", Optional(Str)), ("fields", Optional(Str)),
       ("data", Str), ("password_history", Optional(Str)), ("deleted_at", Optional(DateTime)),
       ("reprompt", Optional(I32))], 0),
      [])
  }

  function Collection(): Table
  {
    Table("collection", ["uuid"],
      Numbered([
      ("uuid", Str), ("org_uuid", Str), ("name", Str), ("external_id", Optional(Str))], 0),
      [])
  }

  function Device(): Table
  {
    Table("device", ["uuid", "user_uuid"],
      Numbered([
      ("uuid", Str), ("user_uuid", Str), ("created_at", DateTime), ("updated_at", DateTime),
       ("name", Str), ("atype", I32), ("push_uuid", Optional(Str)),
       ("push_token", Optional(Str)), ("refresh_token", Str), ("twofactor_remember", Str)], 0),
      [])
  }

  function Event(): Table
  {
    Table("event", ["uuid"],
      Numbered([
      ("uuid", Str), ("event_type", I32), ("user_uuid", Optional(Str)),
       ("org_uuid", Optional(Str)), ("cipher_uuid", Optional(Str)),
       ("collection_uuid", Optional(Str)), ("group_uuid", Optional(Str)),
       ("org_user_uuid", Optional(Str)), ("act_user_uuid", Optional(Str)),
       ("device_type", Optional(I32)), ("ip_address", Optional(Str)), ("event_date", DateTime),
       ("policy_uuid", Optional(Str)), ("provider_uuid", Optional(Str)),
       ("provider_user_uuid", Optional(Str))], 0)
      + Numbered([
      ("provider_org_uuid", Optional(Str))], 16),
      [])
  }

  function Folder(): Table
  {
    Table("folder", ["uuid"],
      Numbered([
      ("uuid", Str), ("created_at", DateTime), ("updated_at", DateTime), ("user_uuid", Str),
       ("name", Str)], 0),
      [])
  }

  function OrgPolicy(): Table
  {
    Table("org_policy", ["uuid"],
      Numbered([
      ("uuid", Str), ("org_uuid", Str), ("atype", I32), ("enable", Bool), ("data", Str)], 0),
      [])
  }

  function Organization(): Table
  {
    Table("organization", ["uuid"],
      Numbered([
      ("uuid", Str), ("name", Str), ("billing_email", Str), ("private_key", Optional(Str)),
       ("public_key", Str)], 0),
      [])
  }

  function Send(): Table
  {
    Table("send", ["uuid"],
      Numbered([
      ("uuid", Str), ("user_uuid", Optional(Str)), ("organization_uuid", Optional(Str)),
       ("name", Str), ("notes", Optional(Str)), ("atype", I32), ("data", Str), ("akey", Str),
       ("password_hash", Optional(Binary)), ("password_salt", Optional(Binary)),
       ("password_iter", Optional(I32)), ("max_access_count", Optional(I32)),
       ("access_count", I32), ("creation_date", DateTime), ("revision_date", DateTime),
       ("expiration_date", Optional(DateTime)), ("deletion_Date", DateTime),
       ("disabled", Bool), ("hide_email", Optional(Bool))], 0),
      [])
  }

  function Twofactor(): Table
  {
    Table("twofactor", ["uuid"],
      Numbered([
      ("uuid", Str), ("user_uuid", Str), ("atype", I32), ("enabled", Bool), ("data", Str),
       ("last_used", I64)], 0),
      [])
  }

  function TwofactorIncomplete(): Table
  {
    Table("twofactor_incomplete", ["user_uuid", "device_uuid"],
      Numbered([
      ("user_uuid", Str), ("device_uuid", Str), ("device_name", Str), ("login_time", DateTime),
       ("ip_address", Str)], 0),
      [])
  }

  function User(): Table
  {
    Table("user", ["uuid"],
      Numbered([
      ("uuid", Str), ("enabled", Bool), ("created_at", DateTime), ("updated_at", DateTime),
       ("verified_at", Optional(DateTime)), ("last_verifying_at", Optional(DateTime)),
       ("login_verify_count", I32), ("email", Str), ("email_new", Optional(Str)),
       ("email_new_token", Optional(Str)), ("name", Str), ("password_hash", Binary),
       ("salt", Binary), ("password_iterations", I32), ("password_hint", Optional(Str)),
       ("akey", Str), ("private_key", Optional(Str)), ("public_key", Optional(Str)),
       ("totp_secret", Optional(Str)), ("totp_recover", Optional(Str)),
       ("security_stamp", Str), ("stamp_exception", Optional(Str)),
       ("equivalent_domains", Str), ("excluded_globals", Str), ("client_kdf_type", I32),
       ("client_kdf_iter", I32), ("client_kdf_memory", Optional(I32)),
       ("client_kdf_parallelism", Optional(I32)), ("api_key", Optional(Str)),
       ("avatar_color", Optional(Str)), ("external_id", Optional(Str))], 0),
      [])
  }

  function Group(): Table
  {
    Table("group", ["uuid", "name"],
      Numbered([
      ("uuid", Str), ("organizations_uuid", Str), ("name", Str), ("access_all", Bool),
       ("external_id", Optional(Str)), ("creation_date", DateTime),
       ("revision_date", DateTime)], 0),
      ["name"])
  }

  /** Every table of the file, in declaration order. */
  function Tables(): seq<Table>
  {
    [Attachments(), Cipher(), Collection(), Device(), Event(), Folder(), OrgPolicy(), Organization(), Send(), Twofactor(), TwofactorIncomplete(), User(), Group()]
  }

  // ---- properties of the declared tables ----

  lemma AttachmentsWellFormed()
    ensures WellFormed(Attachments())
  {
  }

  lemma CipherWellFormed()
    ensures WellFormed(Cipher())
  {
  }

  lemma CollectionWellFormed()
    ensures WellFormed(Collection())
  {
  }

  lemma DeviceWellFormed()
    ensures WellFormed(Device())
  {
    var t := Device();
    IncreasingDistinct(t.columns);
    assert t.columns[0].name == "uuid";
    assert t.columns[1].name == "user_uuid";
  }

  lemma FolderWellFormed()
    ensures WellFormed(Folder())
  {
  }

  lemma OrgPolicyWellFormed()
    ensures WellFormed(OrgPolicy())
  {
  }

  lemma OrganizationWellFormed()
    ensures WellFormed(Organization())
  {
  }

  lemma SendWellFormed()
    ensures WellFormed(Send())
  {
  }

  lemma TwofactorWellFormed()
    ensures WellFormed(Twofactor())
  {
  }

  lemma TwofactorIncompleteWellFormed()
    ensures WellFormed(TwofactorIncomplete())
  {
    var t := TwofactorIncomplete();
    IncreasingDistinct(t.columns);
    assert t.columns[0].name == "user_uuid";
    assert t.columns[1].name == "device_uuid";
  }

  lemma UserWellFormed()
    ensures WellFormed(User())
  {
  }

  lemma GroupWellFormed()
    ensures WellFormed(Group())
  {
    var t := Group();
    IncreasingDistinct(t.columns);
    assert t.columns[0].name == "uuid";
    assert t.columns[2].name == "name";
  }

  /** Event's tags jump from 14 to 16: the last column sits at position 15 but
      carries tag 16, so a tag is not a column position. */
  lemma EventWellFormed()
    ensures WellFormed(Event())
    ensures |Event().columns| == 16 && Event().columns[15].tag == 16
    ensures forall c :: c in Event().columns ==> c.tag != 15
  {
    var t := Event();
    var a := t.columns[..15];
    var b := t.columns[15..];
    assert t.columns == a + b;
    AppendIncreasing(a, b);
    IncreasingDistinct(t.columns);
    assert t.columns[0].name == "uuid";
  }

  /** Every declared table is well formed. */
  lemma AllTablesWellFormed()
    ensures forall i :: 0 <= i < |Tables()| ==> WellFormed(Tables()[i])
  {
    AttachmentsWellFormed();
    CipherWellFormed();
    CollectionWellFormed();
    DeviceWellFormed();
    EventWellFormed();
    FolderWellFormed();
    OrgPolicyWellFormed();
    OrganizationWellFormed();
    SendWellFormed();
    TwofactorWellFormed();
    TwofactorIncompleteWellFormed();
    UserWellFormed();
    GroupWellFormed();
  }

  /** No two tables share a name, so their keyspaces never coincide. */
  lemma TableNamesDistinct()
    ensures forall i, j :: 0 <= i < j < |Tables()| ==> Tables()[i].name != Tables()[j].name
  {
  }

  /** Group is the only table with an index, and its index column is the second
      primary-key column. */
  lemma OnlyGroupIndexed()
    ensures forall i :: 0 <= i < |Tables()| ==> (Tables()[i].index != [] <==> Tables()[i].name == "group")
    ensures Group().index == ["name"] && Group().primaryKey[1] == "name"
  {
  }
}

=== FILE: wrappers.dfy ===
/** Failure-carrying wrappers used across the model: Rust's `Option` and `Result`. */
module Wrappers {

  datatype Option<+T> = None | Some(value: T)

  datatype Result<+T, +E> = Ok(value: T) | Err(error: E)
}
